=== FILE: README.md ===
# Timezone index builder, modelled in Dafny

This project models `TimezoneFinder::FileConverter`. It is the offline
builder that turns the zone polygons of a world timezone data set into the
binary index used for lookups. Every coordinate is a fixed-point integer:
the degree value times 10^7.

The model follows the builder's steps.

- **Parsing.** Each matched line becomes a zone name and an alternating list
  of values. The list is split into x and y values, and an odd count aborts
  the build. The bounding box is folded from seeds of -180/180 and -90/90.
- **Zone names.** The names are deduplicated and then
  sorted. Each polygon's zone id is the position of its name in the sorted
  table.
- **Geometry kernel.**
  - The winding-number point-in-polygon test. It looks only at edges
    (i, i+1) with i < len-1; there is no implicit closing edge.
  - The crossing scans `x_intersections` and `y_intersections`. They use the
    asymmetric straddle test "one end `<=`, the other `>`".
  - The interpolation of the crossing point, as an exact `real`.
  - The odd-crossing checks of the exact shortcut computation.
- **Shortcut grid.**
  - The grid has 360 columns of one degree of longitude each. It has 360 rows
    of half a degree of latitude each, counted from the north.
  - A small zone is indexed under its whole bounding-box product, column by
    column.
  - A big zone is indexed under its exact cell set, clipped to the box and
    checked. The exact set comes from the floating-point span walk.
  - Every polygon id is appended to the lists of its cells, in polygon order.
- **Binary layout.** The file has nine big-endian sections:
  1. the header;
  2. zone ids;
  3. point counts;
  4. polygon data addresses;
  5. bounding boxes;
  6. coordinates;
  7. the 129,600-entry count table, column-major;
  8. the cell address table;
  9. the id lists.

  The builder's own runtime checks are modelled as error results. The
  contracts show which of them can never fire:
  - the polygon address check;
  - the table size check;
  - "more shortcuts than before";
  - the odd-crossing checks after ring closing;
  - the id range check.

  The build can fail in only three ways:
  - a line with an odd number of values;
  - a big zone left with fewer than three cells;
  - a cell listing more than 300 polygons.

Read-back lemmas state what a reader of the file finds at each offset the
header and the tables announce. `Build` states the success condition of the
whole pipeline. `BuildWritesLayout` connects `Build` to the read-backs.

Details of the code worth knowing:
- The address check at `file_converter.rb:585` compares two computed numbers,
  not the file position. The model proves that the physical offset agrees as
  well (`LayoutProofs.SectionOffsets`).
- The id range check at `file_converter.rb:655` uses `entry > nr_of_lines`,
  which is one too lenient. No id ever reaches the polygon count, so the
  difference is unobservable (`FileConverter.WellIndexedEntries`).
- The format description in the file's closing comment disagrees with the
  code twice; the model follows the code. At `file_converter.rb:679` the
  shortcut area is said to start at "end of polygons+1"; the code at
  `file_converter.rb:558` puts it exactly at the end of the polygon data
  (`LayoutProofs.PolygonDataEndsAtShortcutStart`). At
  `file_converter.rb:703` the cell address table is said to start 129,600
  past the count table; the code writes it right after the count table's
  129,600 two-byte entries, 259,200 bytes past its start
  (`LayoutProofs.CellAddressBytes`).

Modules: `Errors`, `Seqs`, `Polygons`, `Parsing`, `ZoneNames`, `Geometry`,
`Grid`, `Shortcuts`, `Packing`, `Layout`, `LayoutProofs`, `FileConverter`.

## Model

| member | source | states |
|---|---|---|
| ZoneNames.Dedup | lib/timezonefinder/file_converter.rb:35-38 | the unique-zone list is duplicate free, holds exactly the names that occur, and is no longer than the input |
| ZoneNames.Insert | lib/timezonefinder/file_converter.rb:40 | inserting into an ascending list keeps it ascending and adds exactly one occurrence of the name |
| ZoneNames.Sort | lib/timezonefinder/file_converter.rb:40 | `sort!` yields an ascending permutation of its input |
| ZoneNames.SortedDistinctIsStrict | lib/timezonefinder/file_converter.rb:35-40 | a sorted duplicate-free table is strictly ascending |
| ZoneNames.AssignZoneIds | lib/timezonefinder/file_converter.rb:35-45 | the table is strictly ascending, duplicate free and holds exactly the occurring names; there is one id per polygon, and each id indexes the polygon's own name |
| ZoneNames.SameIdIffSameName | lib/timezonefinder/file_converter.rb:42-45 | two polygons get the same id exactly when they have the same zone name |
| ZoneNames.IdsFollowNameOrder | lib/timezonefinder/file_converter.rb:40-45 | a smaller id means a lexicographically smaller name, and conversely |
| Seqs.IndexOf | lib/timezonefinder/file_converter.rb:37-44 | `Array#index`: the first position holding the value, before which it does not occur; the length exactly when it does not occur |
| Seqs.Range | lib/timezonefinder/file_converter.rb:182-188 | `(lo..hi).to_a`: strictly ascending, exactly the integers from lo to hi, starting at lo and ending at hi when lo <= hi, empty otherwise |
| Geometry.IsLeftOfAntisymmetric | lib/timezonefinder/file_converter.rb:60-62 | reversing an edge negates `is_left_of`; both endpoints lie on the edge's line |
| Geometry.IsLeftOf | lib/timezonefinder/file_converter.rb:60-62 | `is_left_of`, the cross product of the edge vector and the vector to the point, whose sign says on which side of the edge's line the point lies; its antisymmetry and its zero at both endpoints are stated by `IsLeftOfAntisymmetric` |
| Geometry.EdgeWinding | lib/timezonefinder/file_converter.rb:64-90 | one edge changes the winding number by at most one: +1 only for an upward edge (y1 <= y < y2) with the point strictly left of it, -1 only for a downward edge (y2 <= y < y1) with the point strictly right of it, 0 for an edge that does not straddle the point's line |
| Geometry.Winding | lib/timezonefinder/file_converter.rb:64-90 | the winding number over the first k edges, with no closing edge; how far it can move is stated by `WindingBoundedByCrossings`: never further from 0 than the number of edges straddling the point's line |
| Geometry.CrossingEdges | lib/timezonefinder/file_converter.rb:239-256 | the selected edges are ascending, each straddles the line, every straddling edge is selected, and there are at most as many as edges |
| Geometry.CrossingParity | lib/timezonefinder/file_converter.rb:239-256 | the number of crossings is odd exactly when the first and last points lie on different sides of the line |
| Geometry.ClosedRingEvenCrossings | lib/timezonefinder/file_converter.rb:288-289 | a ring whose last point repeats its first crosses every scan line an even number of times |
| Geometry.NoStraddleNoCrossings | lib/timezonefinder/file_converter.rb:239-256 | without a straddling edge the scan selects nothing |
| Geometry.WindingBoundedByCrossings | lib/timezonefinder/file_converter.rb:64-90 | the winding number never exceeds, in absolute value, the number of edges straddling the point's line |
| Geometry.InsidePolygon | lib/timezonefinder/file_converter.rb:59-92 | a point is inside only if some edge (i, i+1) straddles its horizontal line |
| Geometry.OneSidedRingIsOutside | lib/timezonefinder/file_converter.rb:59-92 | when all vertices lie at or below the line, or all above it, the point is outside |
| Geometry.RectangleInside | lib/timezonefinder/file_converter.rb:59-92 | on a closed rectangle the test classifies exactly the half-open box [x0,x1) x [y0,y1) as inside |
| Geometry.OpenRectangleHasNoClosingEdge | lib/timezonefinder/file_converter.rb:64-67 | without the repeated first point the left side is missing, so every point left of the right side and within the height counts as inside |
| Geometry.ComputeXIntersection | lib/timezonefinder/file_converter.rb:220-224 | for a non-horizontal edge the result lies on the line through the edge at height `y` |
| Geometry.ComputeYIntersection | lib/timezonefinder/file_converter.rb:227-231 | equals `ComputeXIntersection` with the axes exchanged, including on a vertical edge |
| Geometry.YIntersectionDegenerateCase | lib/timezonefinder/file_converter.rb:229 | on a vertical edge the as-written version answers an x value (100) where the edge's y is 0 |
| Geometry.ComputeYIntersectionAsWritten | lib/timezonefinder/file_converter.rb:227-230 | on a non-vertical edge the result lies on the line through the edge at abscissa `x` |
| Geometry.YIntersectionVersionsAgree | lib/timezonefinder/file_converter.rb:260-277 | on every edge the y scan selects, the as-written and corrected versions agree |
| Geometry.YIntersectionsMatchSource | lib/timezonefinder/file_converter.rb:260-277 | the y scan built on the as-written `compute_y_intersection` gives exactly the values of `YIntersections`, crossing by crossing |
| Geometry.InterpolationOnSegment | lib/timezonefinder/file_converter.rb:220-224 | a straddling edge is never horizontal, so the degenerate branch is unreached, and the crossing lies between the edge's endpoints |
| Geometry.XIntersections | lib/timezonefinder/file_converter.rb:233-258 | one value per straddling edge, so at most len-1 values |
| Geometry.XIntersectionsOnEdges | lib/timezonefinder/file_converter.rb:233-258 | each value is where its straddling edge meets the scan line, between the edge's endpoints |
| Geometry.YIntersections | lib/timezonefinder/file_converter.rb:260-277 | one value per straddling edge, so at most len-1 values |
| Geometry.YIntersectionsOnEdges | lib/timezonefinder/file_converter.rb:260-277 | each value is where its straddling edge meets the scan line, between the edge's endpoints |
| Geometry.CloseRing | lib/timezonefinder/file_converter.rb:288-289 | the ring gets its first point appended; the old points are kept and the last point equals the first |
| Geometry.LatitudeCrossings | lib/timezonefinder/file_converter.rb:299-307 | the check fails exactly when the ring's first and last y lie on different sides of the line; on success the result is the x crossings |
| Geometry.LongitudeCrossings | lib/timezonefinder/file_converter.rb:371-379 | the check fails exactly when the ring's first and last x lie on different sides of the line; on success the result is the y crossings |
| Geometry.ClosedRingScansSucceed | lib/timezonefinder/file_converter.rb:288-307 | after ring closing neither parity check can fail on any line, and both crossing counts are even |
| Grid.XShortcut | lib/timezonefinder/file_converter.rb:165-169 | the column is the floor: its left edge is at or west of the longitude, the next column's left edge east of it |
| Grid.YShortcut | lib/timezonefinder/file_converter.rb:171-175 | the row is the floor of twice the distance from the north pole |
| Grid.XShortcutMonotone | lib/timezonefinder/file_converter.rb:165-169 | columns never decrease eastwards |
| Grid.YShortcutAntitone | lib/timezonefinder/file_converter.rb:171-175 | rows never increase northwards |
| Grid.ShortcutsOnGlobe | lib/timezonefinder/file_converter.rb:165-175 | longitudes in [-180,180) and latitudes in (-90,90] map into [0,360); 180 and -90 land one past the table |
| Grid.Columns | lib/timezonefinder/file_converter.rb:186-188 | the box's column numbers are strictly ascending (their extent is stated by `RangesOfProperBox`, their coverage by `BoxPointsListed`) |
| Grid.Rows | lib/timezonefinder/file_converter.rb:182-184 | the box's row numbers are strictly ascending (their extent is stated by `RangesOfProperBox`, their coverage by `BoxPointsListed`) |
| Grid.BoxPointsListed | lib/timezonefinder/file_converter.rb:182-188 | every point of the bounding box lies in a listed column and a listed row |
| Grid.RangesOfProperBox | lib/timezonefinder/file_converter.rb:182-188 | for a box that is not inverted, both ranges are non-empty and run from one corner's cell to the other's |
| Grid.BigZone | lib/timezonefinder/file_converter.rb:176-179 | `big_zone`: wider than two columns and taller than two rows; `BigZoneSpansThreeByThree` states what that buys |
| Grid.BigZoneSpansThreeByThree | lib/timezonefinder/file_converter.rb:177-180 | a big zone covers at least three columns and three rows |
| Grid.SmallZoneMembers | lib/timezonefinder/file_converter.rb:519-526 | the product holds exactly the cells with a listed column and a listed row |
| Grid.SmallZoneCells | lib/timezonefinder/file_converter.rb:519-526 | every cell of the bounding-box product has a listed column and a listed row (the converse, the length, the order and distinctness are the `SmallZone*` lemmas) |
| Grid.SmallZoneLength | lib/timezonefinder/file_converter.rb:519-526 | the product has (number of columns) x (number of rows) entries |
| Grid.SmallZoneOrder | lib/timezonefinder/file_converter.rb:519-526 | column-major order: (cols[i], rows[j]) sits at position i x (number of rows) + j |
| Grid.SmallZoneDistinct | lib/timezonefinder/file_converter.rb:519-526 | with duplicate-free ranges the product lists no cell twice |
| Grid.BoxCellCount | lib/timezonefinder/file_converter.rb:519-526 | the product, as a set, has (number of columns) x (number of rows) cells |
| Shortcuts.BoxCellsCount | lib/timezonefinder/file_converter.rb:510 | the bounding-box product of a box has (number of columns) x (number of rows) cells |
| Shortcuts.Clip | lib/timezonefinder/file_converter.rb:477-493 | the kept cells are exactly the exact cells inside the box product, so there are at most (number of columns) x (number of rows) of them |
| Shortcuts.LargeZoneCells | lib/timezonefinder/file_converter.rb:510-515 | the big-zone path succeeds exactly when at least three cells survive clipping, and then yields them; its only error is "too few" |
| Shortcuts.ZoneCells | lib/timezonefinder/file_converter.rb:449-527 | a small zone gets its box product; a big zone gets its exact cells inside the box, or fails when fewer than three remain |
| Shortcuts.AddLine | lib/timezonefinder/file_converter.rb:529-531 | `line` is appended to the list of every given cell; all other lists are untouched |
| Shortcuts.ListLengthBounded | lib/timezonefinder/file_converter.rb:529-533 | no cell lists more ids than there are polygons |
| Shortcuts.AddLineWellIndexed | lib/timezonefinder/file_converter.rb:529-533 | appending the next id keeps every list strictly ascending and within the polygon count |
| Shortcuts.AddLineMembership | lib/timezonefinder/file_converter.rb:529-531 | after the append a list holds the new id exactly for the given cells, and an older id exactly where it held it before |
| Shortcuts.ConstructShortcuts | lib/timezonefinder/file_converter.rb:438-537 | it fails exactly when some polygon's check fails, and only with "too few"; on success every list is strictly ascending with ids below the polygon count, and it lists a polygon exactly when the polygon's cells include the cell |
| Packing.U16RoundTrip | lib/timezonefinder/file_converter.rb:565 | a uint16 packed by `U16` (`pack('S>')`) reads back as the value modulo 2^16 |
| Packing.U32RoundTrip | lib/timezonefinder/file_converter.rb:567 | a uint32 packed by `U32` (`pack('L>')`) reads back as the value modulo 2^32 |
| Packing.I32RoundTrip | lib/timezonefinder/file_converter.rb:598 | an int32 packed by `I32` (`pack('l>')`) in range reads back as itself |
| Packing.U16 | lib/timezonefinder/file_converter.rb:565 | `pack('S>')` writes two bytes (what they read back as is `U16RoundTrip`) |
| Packing.U32 | lib/timezonefinder/file_converter.rb:567 | `pack('L>')` writes four bytes (what they read back as is `U32RoundTrip`) |
| Packing.I32 | lib/timezonefinder/file_converter.rb:598 | `pack('l>')` writes four bytes, the two's complement of the value (what they read back as is `I32RoundTrip`) |
| Packing.ReadPackedU16 | lib/timezonefinder/file_converter.rb:569-571 | entry i of a packed uint16 list, wherever it sits, reads back modulo 2^16, and exactly when in range |
| Packing.ReadPackedU32 | lib/timezonefinder/file_converter.rb:578-583 | entry i of a packed uint32 list reads back modulo 2^32, and exactly when in range |
| Packing.ReadPackedI32 | lib/timezonefinder/file_converter.rb:596-603 | entry i of a packed int32 list reads back as itself when in range |
| Layout.GridSize | lib/timezonefinder/file_converter.rb:628-631 | the grid has 360 x 360 = 129,600 cells, which is the size the table check demands |
| Layout.NrOfFloats | lib/timezonefinder/file_converter.rb:545-547 | the value count is twice the sum of the point counts |
| Layout.PolygonAddressLoop | lib/timezonefinder/file_converter.rb:577-583 | polygon i's address is the data start plus 8 bytes per point of every earlier polygon; the loop ends 8 bytes per point past the start |
| Layout.AddressCheckPasses | lib/timezonefinder/file_converter.rb:585-588 | the address loop ends exactly on the header's shortcut address, so the check never fails |
| Layout.GridCellIndex | lib/timezonefinder/file_converter.rb:612-613 | cell (x, y) of the grid sits at position 360x + y of the tables |
| Layout.GridCellInRange | lib/timezonefinder/file_converter.rb:612-613 | every table position names a grid cell, and indexing it gives the position back |
| Layout.CellLists | lib/timezonefinder/file_converter.rb:611-624 | the nested loop with column x outside and row y inside: the list of cell (x, y) sits at table position 360x + y, empty when the cell has none |
| Layout.Counts | lib/timezonefinder/file_converter.rb:611-624 | the nested loop with column x outside and row y inside: the length of cell (x, y)'s list sits at table position 360x + y, 0 when the cell has none |
| Layout.PolygonBytes | lib/timezonefinder/file_converter.rb:595-603 | a polygon's data is 4 bytes per x value then 4 per y value (what they read back as is `LayoutProofs.PolygonDataReadBack`) |
| Layout.File | lib/timezonefinder/file_converter.rb:563-658 | the bytes written, the sections in order; what a reader finds at each offset is stated by the `LayoutProofs.*ReadBack` lemmas |
| Layout.FirstAbove | lib/timezonefinder/file_converter.rb:634-637 | finds the first count above the bound, every earlier one being within it; it answers the length when there is none |
| Layout.ShortcutAddressLoop | lib/timezonefinder/file_converter.rb:641-650 | 0 for an empty cell; otherwise the first list address plus 2 bytes per id of every earlier cell |
| Layout.AddressLoopWritesCellAddresses | lib/timezonefinder/file_converter.rb:641-650 | the address loop writes exactly the closed-form cell addresses |
| Layout.NextListAddress | lib/timezonefinder/file_converter.rb:642-649 | consecutive non-empty cells' addresses differ by 2 x the earlier count |
| Layout.FirstListAtStart | lib/timezonefinder/file_converter.rb:641-649 | the first non-empty cell's address is the start address |
| Layout.Compile | lib/timezonefinder/file_converter.rb:556-658 | the checks of lines 585, 628, 635 and 655 in write order: fails only on a count above 300, naming the count, or on an id beyond the polygon count, and exactly then; otherwise yields the file |
| LayoutProofs.PolygonDataSize | lib/timezonefinder/file_converter.rb:595-603 | the coordinate data takes 8 bytes per point when every polygon has as many y as x values |
| LayoutProofs.IdListSize | lib/timezonefinder/file_converter.rb:653-658 | the id lists take 2 bytes per entry |
| LayoutProofs.SectionSizes | lib/timezonefinder/file_converter.rb:563-658 | the nine sections of `Layout.Sections`, in write order, are 6, 2n, 2n, 4n, 16n, 8 x Σlen, 2 x 129,600, 4 x 129,600 and 2 x Σcounts bytes long |
| LayoutProofs.SectionOffsets | lib/timezonefinder/file_converter.rb:556-641 | the coordinate data starts at 6+24n; the count table starts at the header's shortcut address; the first id list starts at the line-641 address; the file's total length follows |
| LayoutProofs.HeaderBytes | lib/timezonefinder/file_converter.rb:564-567 | the file starts with the packed polygon count and shortcut address |
| LayoutProofs.ZoneIdBytes | lib/timezonefinder/file_converter.rb:568-571 | the zone id table sits at offset 6 |
| LayoutProofs.LengthBytes | lib/timezonefinder/file_converter.rb:572-575 | the length table sits at 6+2n |
| LayoutProofs.AddressBytes | lib/timezonefinder/file_converter.rb:577-583 | the polygon address table sits at 6+4n |
| LayoutProofs.BoundaryBytes | lib/timezonefinder/file_converter.rb:590-593 | the box table sits at 6+8n and ends at 6+24n |
| LayoutProofs.PolygonDataBytes | lib/timezonefinder/file_converter.rb:595-603 | the coordinate data fills exactly the bytes from 6+24n to the shortcut address |
| LayoutProofs.CountBytes | lib/timezonefinder/file_converter.rb:633-637 | the count table sits at the shortcut address |
| LayoutProofs.CellAddressBytes | lib/timezonefinder/file_converter.rb:639-650 | the cell address table follows the count table |
| LayoutProofs.IdListBytes | lib/timezonefinder/file_converter.rb:652-658 | the id lists start at the first list address and end the file |
| LayoutProofs.PolygonAddressBound | lib/timezonefinder/file_converter.rb:577-588 | every polygon's data ends no later than the shortcut section starts |
| LayoutProofs.PolygonDataEndsAtShortcutStart | lib/timezonefinder/file_converter.rb:556-603 | the coordinate data ends exactly at the shortcut address in the header |
| LayoutProofs.FirstListAtListsStart | lib/timezonefinder/file_converter.rb:641 | the line-641 address is where the two shortcut tables end |
| LayoutProofs.FileHasTables | lib/timezonefinder/file_converter.rb:563-593 | the written file holds header, zone ids, lengths, addresses and boxes at their offsets |
| LayoutProofs.FileHasData | lib/timezonefinder/file_converter.rb:595-658 | the written file holds coordinates, counts, cell addresses and id lists at their offsets |
| LayoutProofs.FileHasLayout | lib/timezonefinder/file_converter.rb:563-658 | the written file has all nine sections where the header and tables announce them |
| LayoutProofs.HeaderReadBack | lib/timezonefinder/file_converter.rb:564-567 | offset 0 reads as the polygon count and offset 2 as the shortcut address |
| LayoutProofs.ZoneIdReadBack | lib/timezonefinder/file_converter.rb:569-571 | offset 6+2i reads as polygon i's zone id |
| LayoutProofs.LengthReadBack | lib/timezonefinder/file_converter.rb:573-575 | offset 6+2n+2i reads as polygon i's point count |
| LayoutProofs.AddressReadBack | lib/timezonefinder/file_converter.rb:577-583 | offset 6+4n+4i reads as the address of polygon i's data |
| LayoutProofs.BoundaryReadBack | lib/timezonefinder/file_converter.rb:590-593 | offset 6+8n+16i reads as polygon i's xmax, xmin, ymax, ymin |
| LayoutProofs.PolygonDataReadBack | lib/timezonefinder/file_converter.rb:595-603 | from polygon i's address come its x values and then its y values |
| LayoutProofs.CountReadBack | lib/timezonefinder/file_converter.rb:611-637 | position 360x+y of the count table reads as cell (x, y)'s id count |
| LayoutProofs.CellAddressReadBack | lib/timezonefinder/file_converter.rb:639-650 | cell (x, y)'s address entry is 0 exactly when the cell is empty, and otherwise the address of its list |
| LayoutProofs.CellListReadBack | lib/timezonefinder/file_converter.rb:652-658 | entry j of cell (x, y)'s list, at its list address plus 2j, reads as the cell's j-th polygon id |
| Parsing.Unzip | lib/timezonefinder/file_converter.rb:116-124 | even positions become x values and odd positions y values |
| Parsing.Interleave | lib/timezonefinder/file_converter.rb:116-126 | the inverse of the split: one value pair per point, x before y (the round trips are `DeinterleaveThenInterleave` and `InterleaveThenDeinterleave`) |
| Parsing.Deinterleave | lib/timezonefinder/file_converter.rb:116-126 | fails exactly on an odd count, reporting it; otherwise yields one x and one y per point |
| Parsing.DeinterleaveThenInterleave | lib/timezonefinder/file_converter.rb:116-126 | splitting an even list and interleaving again gives the list back |
| Parsing.InterleaveThenDeinterleave | lib/timezonefinder/file_converter.rb:116-126 | interleaving a polygon and splitting again gives the polygon back |
| Parsing.FoldMax | lib/timezonefinder/file_converter.rb:137-140 | the result is at least the seed and every value, and is the seed or one of the values |
| Parsing.FoldMin | lib/timezonefinder/file_converter.rb:137-140 | the result is at most the seed and every value, and is the seed or one of the values |
| Parsing.BoundingBox | lib/timezonefinder/file_converter.rb:132-147 | the box encloses every point and is no tighter than the seeds |
| Parsing.BoundingBoxAttained | lib/timezonefinder/file_converter.rb:132-147 | every side of the box is its seed or a coordinate of the polygon |
| Parsing.BoundingBoxIsExact | lib/timezonefinder/file_converter.rb:132-147 | for a non-empty polygon on the globe, every side is attained by a point and the box is not inverted |
| Parsing.EmptyPolygonBoundingBox | lib/timezonefinder/file_converter.rb:132-135 | a polygon without points keeps the seeds, an inverted box |
| FileConverter.SplitLine | lib/timezonefinder/file_converter.rb:116-126 | an even list of values splits into its points pair by pair |
| FileConverter.ParseLines | lib/timezonefinder/file_converter.rb:98-149 | on success every line is even, and entry i holds line i's name and the points split from its values; on failure the error names the value count of the first odd line |
| FileConverter.WellIndexedEntries | lib/timezonefinder/file_converter.rb:653-658 | every id written into the lists is below the polygon count, so the id range check never fires |
| FileConverter.Build | lib/timezonefinder/file_converter.rb:159-668 | the build succeeds exactly when every line parses, every big zone keeps at least three cells, and no cell lists more than 300 polygons; it then yields the file of the parsed records and grid; its only errors are those three |
| FileConverter.FewPolygonsNeverOverflow | lib/timezonefinder/file_converter.rb:634-637 | with at most 300 polygons the capacity check never fires |
| FileConverter.BuildWritesLayout | lib/timezonefinder/file_converter.rb:556-658 | a built file has every section at the offset the header and tables announce, for the records parsed from the lines |
| FileConverter.ParsedNames | lib/timezonefinder/file_converter.rb:105-107 | the parsed names are the lines' zone names in order |
| FileConverter.RecordsOfLines | lib/timezonefinder/file_converter.rb:540-547 | record i carries line i's points, their bounding box, and the id of line i's name in the sorted table |
| FileConverter.RecordsWellFormed | lib/timezonefinder/file_converter.rb:116-129 | records built from lines have as many y values as x values |
| FileConverter.ZoneIdInFile | lib/timezonefinder/file_converter.rb:569-571 | the zone id read at 6+2i indexes line i's own name in the sorted table |
| FileConverter.CoordinatesInFile | lib/timezonefinder/file_converter.rb:595-603 | from polygon i's address come line i's even-position values, then its odd-position values |

## Left out

- JSON reading and the regular expressions that pick the zone name and the numbers out of a line (`file_converter.rb:95-111`): lines enter as a name plus a list of integer values.
- `Helpers.coord2int` and `Helpers.int2coord`: that helper module is not part of this model. Every coordinate is taken as already in fixed point.
- File I/O, the zone-name Ruby file written by `update_zone_names`, progress and timing output, the percentage diagnostics and the top-level script. These are side effects only. The output is the byte sequence that would be written.
- The floating-point span walk of `compute_exact_shortcuts` (`file_converter.rb:190-217`, `309-433`): the exact cell set of each polygon is a parameter of `ConstructShortcuts` and `Build`. The parity check that precedes the walk is modelled (`LatitudeCrossings`, `LongitudeCrossings`). The sorting of the crossings and their conversion back to degrees are not.
- Partial output on failure: the file is opened at `file_converter.rb:563` and written as the build goes, so a `fail` at :587, :630, :635 or :655 leaves a partly written file behind. The model's `Err` carries no bytes and says nothing about that leftover file.
- Floating-point rounding: column and row numbers are computed exactly on fixed-point integers, and interpolated crossings are exact reals.
- FileConverter.Build: it does not include the parity checks of the span walk. Because of `ClosedRingScansSucceed` they cannot fail, so leaving them out changes no outcome.
- FileConverter.ParseLines: the error carries the offending value count but not the line number that the message at `file_converter.rb:126` prints.
- Layout.Compile: the id range check at `file_converter.rb:655` calls `fail entry` with an Integer, which Ruby rejects with a TypeError that names no value; `EntryOutOfRange` carries the entry. The check cannot fire (`FileConverter.WellIndexedEntries`).
- Shortcuts.ConstructShortcuts: the "too few" error records the polygon's position. The message at `file_converter.rb:514` has no position.
- ZoneNames.Sort: names are compared by Unicode code point, while Ruby compares the UTF-8 bytes of the strings. UTF-8 byte order equals code-point order, so the two orders agree on every name that is valid UTF-8; byte strings that are not valid UTF-8 are not modelled.
- LayoutProofs.HeaderReadBack: Ruby's `pack` keeps only the low 16 or 32 bits and the code never range-checks. The packers model the wrap-around; the read-back requires the values to fit their fields.
- LayoutProofs.ZoneIdReadBack: requires the values read to fit their fields, for the same reason.
- LayoutProofs.LengthReadBack: requires the values read to fit their fields, for the same reason.
- LayoutProofs.AddressReadBack: requires the values read to fit their fields, for the same reason.
- LayoutProofs.BoundaryReadBack: requires the values read to fit their fields, for the same reason.
- LayoutProofs.PolygonDataReadBack: requires the values read to fit their fields, for the same reason.
- LayoutProofs.CountReadBack: requires the values read to fit their fields, for the same reason.
- LayoutProofs.CellAddressReadBack: requires the values read to fit their fields, for the same reason.
- LayoutProofs.CellListReadBack: requires the values read to fit their fields, for the same reason.
- FileConverter.BuildWritesLayout: the reading of a built file is stated for the records and grid that `Build` uses. To obtain it per line, compose it with `RecordsOfLines`, `ZoneIdInFile` and `CoordinatesInFile`; no single lemma states it for `Build`'s output directly.
- Parsing.BoundingBox: the source folds the box while it parses each line. The model folds it over the parsed polygon afterwards, which gives the same values.

## Findings

| source | as written | input that shows it | evidently intended | confidence | as-written member | corrected member |
|---|---|---|---|---|---|---|
| lib/timezonefinder/file_converter.rb:229 | `compute_y_intersection` returns `x1` when `x2 == x1`, an x value where a y value is due (a copy of line 222) | x = 0 on the vertical edge (100, 0) to (100, 10): answers 100, outside the edge's y range [0, 10] | return `y1`, mirroring `compute_x_intersection`; no caller reaches the branch, because a straddling edge always has `x1 != x2` | not executed | Geometry.ComputeYIntersectionAsWritten | Geometry.ComputeYIntersection |

=== FILE: converter.dfy ===
/** The converter's build from end to end, as the top-level steps run it:
    parse every matched line (`parse_polygons_from_json`), number the zones
    (`update_zone_names`), build the shortcut grid (`construct_shortcuts`)
    and write the file (`compile_into_binary`). The float span walk of big
    zones is not modelled: each polygon's exact cell set is an input. */
module FileConverter {
  import opened Seqs
  import opened Errors
  import opened Polygons
  import opened Parsing
  import opened ZoneNames
  import opened Grid
  import opened Shortcuts
  import opened Packing
  import opened Layout
  import opened LayoutProofs

  /** One line of the source data that names a zone: the name and the
      coordinate values scanned from the line, in fixed point. */
  datatype Line = Line(zoneName: string, coords: seq<int>)

  /** What parsing collects, one entry per polygon: the zone name and the
      points. The boxes parsing also folds are `BoundsOf(polygons)`. */
  datatype Parsed = Parsed(names: seq<string>, polygons: seq<Polygon>)

  /** A line holds whole (x, y) pairs. */
  predicate EvenLine(l: Line) {
    |l.coords| % 2 == 0
  }

  /** The zone name of every line, in order (`@all_tz_names`). */
  function NamesOf(lines: seq<Line>): (r: seq<string>)
    ensures |r| == |lines|
  {
    seq(|lines|, i requires 0 <= i < |lines| => lines[i].zoneName)
  }

  /** `p` is line values `coords` split into points: the values at even
      positions are its x values and those at odd positions its y values. */
  predicate SplitOf(p: Polygon, coords: seq<int>) {
    && p.WellFormed() && 2 * p.Length() == |coords|
    && forall k :: 0 <= k < |p.xs| ==> p.xs[k] == coords[2 * k] && p.ys[k] == coords[2 * k + 1]
  }

  /** Splitting an even list of values gives its points. */
  lemma SplitLine(coords: seq<int>)
    requires |coords| % 2 == 0
    ensures SplitOf(Deinterleave(coords).value, coords)
  {
  }

  /** `p` is what parsing `lines` collects: entry `i` is line `i`'s name,
      and its values split into a polygon. */
  predicate ParsedFrom(p: Parsed, lines: seq<Line>) {
    && |p.names| == |lines| && |p.polygons| == |lines|
    && forall i :: 0 <= i < |lines| ==>
         && p.names[i] == lines[i].zoneName
         && SplitOf(p.polygons[i], lines[i].coords)
  }

  /** Line `i` is the first line with an odd number of values. */
  predicate FirstOddLine(lines: seq<Line>, i: int) {
    0 <= i < |lines| && !EvenLine(lines[i]) && forall j :: 0 <= j < i ==> EvenLine(lines[j])
  }

  /** Lines 94-151 after the text scraping: the lines are parsed in order
      and the first line with an odd number of values aborts the parse. */
  function ParseLines(lines: seq<Line>): (r: Result<Parsed>)
    ensures r.Ok? ==> forall i :: 0 <= i < |lines| ==> EvenLine(lines[i])
    ensures r.Ok? ==> ParsedFrom(r.value, lines)
    ensures r.Err? ==> exists i :: FirstOddLine(lines, i) && r.error == OddCoordinateCount(|lines[i].coords|)
  {
    if |lines| == 0 then Ok(Parsed([], []))
    else
      var n := |lines| - 1;
      assert forall i :: 0 <= i < n ==> lines[..n][i] == lines[i];
      var v :- ParseLines(lines[..n]);
      var xy :- Deinterleave(lines[n].coords);
      assert forall i :: 0 <= i < |lines| ==> EvenLine(lines[i]) by {
        forall i | 0 <= i < |lines|
          ensures EvenLine(lines[i])
        {
          if i < n {
            assert EvenLine(lines[..n][i]);
          }
        }
      }
      var p := Parsed(v.names + [lines[n].zoneName], v.polygons + [xy]);
      assert ParsedFrom(p, lines) by {
        forall i | 0 <= i < |lines|
          ensures p.names[i] == lines[i].zoneName
          ensures SplitOf(p.polygons[i], lines[i].coords)
        {
          if i < n {
            assert lines[..n][i] == lines[i];
            assert p.polygons[i] == v.polygons[i];
            assert SplitOf(v.polygons[i], lines[..n][i].coords);
          } else {
            SplitLine(lines[n].coords);
          }
        }
      }
      Ok(p)
  }

  /** The bounding box of every polygon (`@boundaries`, lines 132-147). */
  function BoundsOf(ps: seq<Polygon>): (r: seq<Boundary>)
    requires forall i :: 0 <= i < |ps| ==> ps[i].WellFormed()
    ensures |r| == |ps|
  {
    seq(|ps|, i requires 0 <= i < |ps| => BoundingBox(ps[i]))
  }

  /** The records `compile_into_binary` writes: each polygon with the id of
      its zone name and its box. */
  function RecordsOf(lines: seq<Line>): (r: seq<PolygonRecord>)
    requires ParseLines(lines).Ok?
    ensures |r| == |lines|
  {
    var p := ParseLines(lines).value;
    var ids := AssignZoneIds(p.names).ids;
    var bounds := BoundsOf(p.polygons);
    seq(|lines|, i requires 0 <= i < |lines| => PolygonRecord(ids[i], p.polygons[i], bounds[i]))
  }

  /** The shortcut grid built from the parsed boxes. */
  function ShortcutsOf(lines: seq<Line>, exact: seq<set<Cell>>): Result<CellMap>
    requires ParseLines(lines).Ok? && |exact| == |lines|
  {
    ConstructShortcuts(BoundsOf(ParseLines(lines).value.polygons), exact)
  }

  /** Every id in a well-indexed grid names an existing polygon. */
  lemma WellIndexedEntries(m: CellMap, n: int)
    requires WellIndexed(m, n)
    ensures forall j :: 0 <= j < |AllEntries(m)| ==> 0 <= AllEntries(m)[j] < n
  {
    forall j | 0 <= j < |AllEntries(m)|
      ensures 0 <= AllEntries(m)[j] < n
    {
      FlattenMember(CellLists(m), j);
      var k :| 0 <= k < NrCells && AllEntries(m)[j] in CellLists(m)[k];
    }
  }

  /** The whole build, with the exact cell set of each polygon given. The
      first failing step decides the error; a cell list can never hold an
      id beyond the polygon count, so the build succeeds exactly when every
      line parses, every polygon's cells pass the checks, and no cell lists
      more than 300 polygons. */
  function Build(lines: seq<Line>, exact: seq<set<Cell>>): (r: Result<seq<Byte>>)
    requires |exact| == |lines|
    ensures r.Err? ==> r.error.OddCoordinateCount? || r.error.TooFewShortcuts? || r.error.TooManyPolygonsInShortcut?
    ensures r.Ok? <==>
              && ParseLines(lines).Ok?
              && ShortcutsOf(lines, exact).Ok?
              && forall k :: 0 <= k < NrCells ==> |Fetch(ShortcutsOf(lines, exact).value, GridCell(k))| <= MaxEntriesPerCell
    ensures r.Ok? ==> r.value == File(RecordsOf(lines), ShortcutsOf(lines, exact).value)
  {
    var _ :- ParseLines(lines);
    var m :- ShortcutsOf(lines, exact);
    WellIndexedEntries(m, |lines|);
    Compile(RecordsOf(lines), m)
  }

  /** With no more polygons than a count field admits per cell, the build
      fails only in parsing or on a big zone with too few cells. */
  lemma FewPolygonsNeverOverflow(lines: seq<Line>, exact: seq<set<Cell>>)
    requires |exact| == |lines| && |lines| <= MaxEntriesPerCell
    ensures Build(lines, exact).Err? ==>
              Build(lines, exact).error.OddCoordinateCount? || Build(lines, exact).error.TooFewShortcuts?
  {
    var r := Build(lines, exact);
    if r.Err? && r.error.TooManyPolygonsInShortcut? {
      var m := ShortcutsOf(lines, exact).value;
      var k :| 0 <= k < NrCells && r.error.count == |Fetch(m, GridCell(k))| > MaxEntriesPerCell;
      ListLengthBounded(m, |lines|, GridCell(k));
      assert false;
    }
  }

  /** A built file has the documented layout for the parsed records and
      the grid. */
  lemma BuildWritesLayout(lines: seq<Line>, exact: seq<set<Cell>>)
    requires |exact| == |lines| && Build(lines, exact).Ok?
    ensures HasLayout(Build(lines, exact).value, RecordsOf(lines), ShortcutsOf(lines, exact).value)
  {
    RecordsOfLines(lines);
    RecordsWellFormed(RecordsOf(lines), lines, AssignZoneIds(NamesOf(lines)));
    FileHasLayout(RecordsOf(lines), ShortcutsOf(lines, exact).value);
  }

  /** The parsed names are the lines' names. */
  lemma ParsedNames(lines: seq<Line>)
    requires ParseLines(lines).Ok?
    ensures ParseLines(lines).value.names == NamesOf(lines)
  {
  }

  /** Record `r` is line `l`'s polygon, with the id of its zone name in
      `t` and its bounding box. */
  predicate RecordFrom(r: PolygonRecord, l: Line, t: ZoneTable) {
    && 0 <= r.zoneId < |t.uniqueZones| && t.uniqueZones[r.zoneId] == l.zoneName
    && SplitOf(r.polygon, l.coords)
    && r.boundary == BoundingBox(r.polygon)
  }

  /** Record `i` is built from line `i`, with the ids of the ascending
      zone name table. */
  lemma RecordsOfLines(lines: seq<Line>)
    requires ParseLines(lines).Ok?
    ensures forall i :: 0 <= i < |lines| ==> RecordFrom(RecordsOf(lines)[i], lines[i], AssignZoneIds(NamesOf(lines)))
  {
    ParsedNames(lines);
  }

  /** Records built from lines are well formed. */
  lemma RecordsWellFormed(recs: seq<PolygonRecord>, lines: seq<Line>, t: ZoneTable)
    requires |recs| == |lines| && forall i :: 0 <= i < |lines| ==> RecordFrom(recs[i], lines[i], t)
    ensures AllWellFormed(recs)
  {
  }

  /** Wherever the zone id table of records built from `lines` has been
      written, entry `i` names line `i`'s zone, when the counts fit 16
      bits. */
  lemma ZoneIdInFile(f: seq<Byte>, recs: seq<PolygonRecord>, lines: seq<Line>, t: ZoneTable, i: nat)
    requires |recs| == |lines| && forall j :: 0 <= j < |lines| ==> RecordFrom(recs[j], lines[j], t)
    requires HasZoneIds(f, recs) && i < |lines|
    requires |lines| < TwoTo16 && |t.uniqueZones| <= TwoTo16
    requires forall j :: 0 <= j < |lines| ==> |lines[j].coords| < 2 * TwoTo16
    ensures 6 + 2 * i + 2 <= |f|
    ensures ReadU16(f, 6 + 2 * i) < |t.uniqueZones|
    ensures t.uniqueZones[ReadU16(f, 6 + 2 * i)] == lines[i].zoneName
  {
    assert TablesFit(recs) by {
      forall j | 0 <= j < |recs|
        ensures 0 <= recs[j].zoneId < TwoTo16 && recs[j].polygon.Length() < TwoTo16
      {
        assert RecordFrom(recs[j], lines[j], t);
      }
    }
    ZoneIdReadBack(f, recs, i);
  }

  /** Wherever the coordinates of the records have been written, the
      values polygon `i` was split from come back from its address: the
      even-position values as x and then the odd-position values as y. */
  lemma CoordinatesInFile(f: seq<Byte>, recs: seq<PolygonRecord>, i: nat, coords: seq<int>, k: nat)
    requires AllWellFormed(recs) && i < |recs| && SplitOf(recs[i].polygon, coords) && HasPolygonData(f, recs)
    requires 2 * k + 1 < |coords| && forall j :: 0 <= j < |coords| ==> FitsInt32(coords[j])
    ensures var a, n := PolygonAddress(recs, i), |coords|;
      && a + 4 * n <= |f|
      && ReadI32(f, a + 4 * k) == coords[2 * k]
      && ReadI32(f, a + 2 * n + 4 * k) == coords[2 * k + 1]
  {
    SplitFits(recs[i].polygon, coords, k);
    PolygonDataReadBack(f, recs, i, k);
  }

  /** A polygon split from values that fit 32 bits fits 32 bits, and point
      `k` is the `k`-th pair of values. */
  lemma SplitFits(p: Polygon, coords: seq<int>, k: nat)
    requires SplitOf(p, coords) && 2 * k + 1 < |coords|
    requires forall j :: 0 <= j < |coords| ==> FitsInt32(coords[j])
    ensures PolygonFits(p) && k < p.Length() && 4 * p.Length() == 2 * |coords|
    ensures p.xs[k] == coords[2 * k] && p.ys[k] == coords[2 * k + 1]
  {
  }
}

=== FILE: errors.dfy ===
/** The fatal conditions of the index build, one constructor per `fail` of the
    converter, and the result type that carries them. Every error aborts the
    whole build and nothing is retried. An `Err` carries no bytes; the
    program itself leaves behind whatever it had written before the failing
    check. */
module Errors {

  datatype BuildError =
      /** A parsed line held an odd number of coordinate values. */
    | OddCoordinateCount(count: nat)
      /** A scan line crossed a ring an odd number of times. */
    | UnevenIntersections
      /** The clipped exact cell set is larger than the bounding-box product. */
    | MoreShortcutsThanBruteForce(line: nat)
      /** The clipped exact cell set has fewer than three cells. */
    | TooFewShortcuts(line: nat)
      /** The polygon address running sum disagrees with the header address. */
    | AddressMismatch
      /** The count table does not have one entry per grid cell. */
    | WrongShortcutTableSize
      /** A grid cell lists more polygons than its count field admits. */
    | TooManyPolygonsInShortcut(count: nat)
      /** A cell list holds a polygon id beyond the polygon count. The program
          itself aborts here with a TypeError that names no value. */
    | EntryOutOfRange(entry: int)

  datatype Result<+T> = Ok(value: T) | Err(error: BuildError) {

    predicate IsFailure() {
      Err?
    }

    function PropagateFailure<U>(): Result<U>
      requires Err?
    {
      Err(error)
    }

    function Extract(): T
      requires Ok?
    {
      value
    }
  }
}

=== FILE: geometry.dfy ===
/** The geometry kernel of the converter: the winding-number point-in-polygon
    test and the edge-crossing scans used by the exact shortcut computation.
    Points are fixed-point integers; crossing positions are interpolated
    exactly as reals. */
module Geometry {
  import opened Seqs
  import opened Errors
  import opened Polygons

  /** `is_left_of`: the cross product of the edge (x1,y1)->(x2,y2) with the
      vector from (x1,y1) to (x,y); positive when the point is left of the
      edge, negative when right, zero when on its line. */
  function IsLeftOf(x: int, y: int, x1: int, x2: int, y1: int, y2: int): int
  {
    (x2 - x1) * (y - y1) - (x - x1) * (y2 - y1)
  }

  /** Reversing an edge flips the side a point lies on, and both endpoints
      lie on the edge's line. */
  lemma IsLeftOfAntisymmetric(x: int, y: int, x1: int, x2: int, y1: int, y2: int)
    ensures IsLeftOf(x, y, x2, x1, y2, y1) == -IsLeftOf(x, y, x1, x2, y1, y2)
    ensures IsLeftOf(x1, y1, x1, x2, y1, y2) == 0
    ensures IsLeftOf(x2, y2, x1, x2, y1, y2) == 0
  {
    assert (x1 - x2) * (y - y2) == (x1 - x2) * (y - y1) + (x1 - x2) * (y1 - y2);
    assert (x - x2) * (y1 - y2) == (x - x1) * (y1 - y2) + (x1 - x2) * (y1 - y2);
  }

  /** The asymmetric straddle test shared by the winding test and both
      scans: one endpoint at or below `v`, the other strictly above. */
  predicate Straddles(v: int, a: int, b: int) {
    (a <= v && b > v) || (a > v && b <= v)
  }

  /** The number of edges a coordinate list describes: `(0...len - 1)`,
      which is empty for an empty list. */
  function Edges(cs: seq<int>): nat {
    if |cs| == 0 then 0 else |cs| - 1
  }

  /** The indices, among the first `k` edges, of the edges whose endpoints
      straddle `v`: the edges `x_intersections` (on ys) and
      `y_intersections` (on xs) select, in loop order. */
  function CrossingEdges(v: int, cs: seq<int>, k: nat): (r: seq<int>)
    requires k <= Edges(cs)
    ensures |r| <= k
    ensures Ascending(r)
    ensures forall j :: 0 <= j < |r| ==> 0 <= r[j] < k && Straddles(v, cs[r[j]], cs[r[j] + 1])
    ensures forall i :: 0 <= i < k && Straddles(v, cs[i], cs[i + 1]) ==> i in r
  {
    if k == 0 then []
    else
      var p := CrossingEdges(v, cs, k - 1);
      if Straddles(v, cs[k - 1], cs[k]) then p + [k - 1] else p
  }

  /** The number of edges among the first `k` that straddle `v`. */
  function StraddleCount(v: int, cs: seq<int>, k: nat): nat
    requires k <= Edges(cs)
  {
    if k == 0 then 0
    else StraddleCount(v, cs, k - 1) + if Straddles(v, cs[k - 1], cs[k]) then 1 else 0
  }

  /** The scan selects one edge per straddling edge. */
  lemma {:induction false} CrossingEdgesCount(v: int, cs: seq<int>, k: nat)
    requires k <= Edges(cs)
    ensures |CrossingEdges(v, cs, k)| == StraddleCount(v, cs, k)
  {
    if k > 0 {
      CrossingEdgesCount(v, cs, k - 1);
    }
  }

  /** Each straddling edge switches the side of `v` the walk is on. */
  lemma {:induction false} StraddleParity(v: int, cs: seq<int>, k: nat)
    requires k < |cs|
    ensures StraddleCount(v, cs, k) % 2 == if (cs[0] > v) == (cs[k] > v) then 0 else 1
  {
    if k > 0 {
      StraddleParity(v, cs, k - 1);
    }
  }

  /** The parity of the crossings along points 0..k is odd exactly when the
      first and the last point lie on different sides of `v`. */
  lemma CrossingParity(v: int, cs: seq<int>, k: nat)
    requires k < |cs|
    ensures |CrossingEdges(v, cs, k)| % 2 == if (cs[0] > v) == (cs[k] > v) then 0 else 1
  {
    CrossingEdgesCount(v, cs, k);
    StraddleParity(v, cs, k);
  }

  /** A closed ring (last point repeating the first) crosses every scan line
      an even number of times. */
  lemma ClosedRingEvenCrossings(v: int, cs: seq<int>)
    requires |cs| > 0 && cs[|cs| - 1] == cs[0]
    ensures |CrossingEdges(v, cs, Edges(cs))| % 2 == 0
  {
    CrossingParity(v, cs, |cs| - 1);
  }

  /** One edge's contribution to the winding number (lines 69-89): +1 for an
      upward crossing with the point on its left, -1 for a downward crossing
      with the point on its right, 0 otherwise. */
  function EdgeWinding(x: int, y: int, x1: int, x2: int, y1: int, y2: int): (r: int)
    ensures -1 <= r <= 1
    ensures r != 0 ==> Straddles(y, y1, y2)
    ensures r == 1 ==> y1 <= y < y2 && IsLeftOf(x, y, x1, x2, y1, y2) > 0
    ensures r == -1 ==> y2 <= y < y1 && IsLeftOf(x, y, x1, x2, y1, y2) < 0
  {
    if y1 <= y then
      if y2 > y && IsLeftOf(x, y, x1, x2, y1, y2) > 0 then 1 else 0
    else
      if y2 <= y && IsLeftOf(x, y, x1, x2, y1, y2) < 0 then -1 else 0
  }

  /** The winding number accumulated over the first `k` edges. */
  function Winding(x: int, y: int, xs: seq<int>, ys: seq<int>, k: nat): (r: int)
    requires |xs| == |ys| && k <= Edges(ys)
    ensures -(k as int) <= r <= k
  {
    if k == 0 then 0
    else Winding(x, y, xs, ys, k - 1) + EdgeWinding(x, y, xs[k - 1], xs[k], ys[k - 1], ys[k])
  }

  function Abs(v: int): nat {
    if v < 0 then -v else v
  }

  /** Only straddling edges move the winding number, each by at most one. */
  lemma {:induction false} WindingBoundedByCrossings(x: int, y: int, xs: seq<int>, ys: seq<int>, k: nat)
    requires |xs| == |ys| && k <= Edges(ys)
    ensures Abs(Winding(x, y, xs, ys, k)) <= |CrossingEdges(y, ys, k)|
  {
    if k > 0 {
      WindingBoundedByCrossings(x, y, xs, ys, k - 1);
    }
  }

  /** `inside_polygon`: the winding number over the edges (i, i+1),
      i < len - 1, is nonzero. A point can only be inside when some edge
      straddles its horizontal line. */
  function InsidePolygon(x: int, y: int, xs: seq<int>, ys: seq<int>): (r: bool)
    requires |xs| == |ys|
    ensures r ==> |CrossingEdges(y, ys, Edges(ys))| > 0
  {
    WindingBoundedByCrossings(x, y, xs, ys, Edges(ys));
    Winding(x, y, xs, ys, Edges(ys)) != 0
  }

  /** When every vertex lies at or below the test line, or every vertex lies
      above it, no edge straddles it and the point is outside. */
  lemma OneSidedRingIsOutside(x: int, y: int, xs: seq<int>, ys: seq<int>)
    requires |xs| == |ys|
    requires (forall i :: 0 <= i < |ys| ==> ys[i] <= y) || (forall i :: 0 <= i < |ys| ==> ys[i] > y)
    ensures !InsidePolygon(x, y, xs, ys)
  {
    NoStraddleNoCrossings(y, ys, Edges(ys));
  }

  /** Without a straddling edge the scan selects nothing. */
  lemma {:induction false} NoStraddleNoCrossings(v: int, cs: seq<int>, k: nat)
    requires k <= Edges(cs)
    requires forall i :: 0 <= i < k ==> !Straddles(v, cs[i], cs[i + 1])
    ensures CrossingEdges(v, cs, k) == []
  {
    if k > 0 {
      NoStraddleNoCrossings(v, cs, k - 1);
    }
  }

  /** Multiplying by a positive factor keeps the sign. */
  lemma PositiveFactorSign(a: int, h: int)
    requires h > 0
    ensures a * h > 0 <==> a > 0
    ensures a * h < 0 <==> a < 0
  {
    if a > 0 {
      ProductOfPositives(a, h);
    } else if a < 0 {
      ProductOfPositives(-a, h);
      assert a * h == -((-a) * h);
    }
  }

  lemma {:induction false} ProductOfPositives(a: int, h: int)
    requires a > 0 && h > 0
    ensures a * h > 0
  {
    if a > 1 {
      ProductOfPositives(a - 1, h);
      assert a * h == (a - 1) * h + h;
    }
  }

  /** The closed counter-clockwise rectangle ring with corners (x0,y0) and
      (x1,y1). */
  function Rectangle(x0: int, y0: int, x1: int, y1: int): Polygon {
    Polygon([x0, x1, x1, x0, x0], [y0, y0, y1, y1, y0])
  }

  /** Boundary classification of the winding test on an axis-aligned
      rectangle: the left and bottom sides count as inside, the right and top
      sides as outside. */
  lemma {:induction false} RectangleInside(x: int, y: int, x0: int, y0: int, x1: int, y1: int)
    requires x0 < x1 && y0 < y1
    ensures InsidePolygon(x, y, Rectangle(x0, y0, x1, y1).xs, Rectangle(x0, y0, x1, y1).ys)
        <==> x0 <= x < x1 && y0 <= y < y1
  {
    var p := Rectangle(x0, y0, x1, y1);
    PositiveFactorSign(x1 - x, y1 - y0);
    PositiveFactorSign(x - x0, y1 - y0);
    assert IsLeftOf(x, y, x1, x1, y0, y1) == (x1 - x) * (y1 - y0);
    assert IsLeftOf(x, y, x0, x0, y1, y0) == (x - x0) * (y1 - y0);
    assert Winding(x, y, p.xs, p.ys, 1) == EdgeWinding(x, y, x0, x1, y0, y0);
    assert Winding(x, y, p.xs, p.ys, 2) == Winding(x, y, p.xs, p.ys, 1) + EdgeWinding(x, y, x1, x1, y0, y1);
    assert Winding(x, y, p.xs, p.ys, 3) == Winding(x, y, p.xs, p.ys, 2) + EdgeWinding(x, y, x1, x0, y1, y1);
    assert Winding(x, y, p.xs, p.ys, 4) == Winding(x, y, p.xs, p.ys, 3) + EdgeWinding(x, y, x0, x0, y1, y0);
  }

  /** Without the repeated first point the rectangle lacks its left side:
      the test adds no implicit closing edge, so every point left of the
      right side and within the height counts as inside. */
  lemma {:induction false} OpenRectangleHasNoClosingEdge(x: int, y: int, x0: int, y0: int, x1: int, y1: int)
    requires x0 < x1 && y0 < y1
    ensures InsidePolygon(x, y, [x0, x1, x1, x0], [y0, y0, y1, y1]) <==> x < x1 && y0 <= y < y1
  {
    PositiveFactorSign(x1 - x, y1 - y0);
    assert IsLeftOf(x, y, x1, x1, y0, y1) == (x1 - x) * (y1 - y0);
    var xs, ys := [x0, x1, x1, x0], [y0, y0, y1, y1];
    assert Winding(x, y, xs, ys, 1) == EdgeWinding(x, y, x0, x1, y0, y0);
    assert Winding(x, y, xs, ys, 2) == Winding(x, y, xs, ys, 1) + EdgeWinding(x, y, x1, x1, y0, y1);
    assert Winding(x, y, xs, ys, 3) == Winding(x, y, xs, ys, 2) + EdgeWinding(x, y, x1, x0, y1, y1);
  }

  function Min(a: int, b: int): int {
    if a <= b then a else b
  }

  function Max(a: int, b: int): int {
    if a <= b then b else a
  }

  /** `compute_x_intersection`: where the horizontal line at `y` meets the
      line through (x1,y1) and (x2,y2); `x1` for a horizontal edge. */
  function ComputeXIntersection(y: int, x1: int, x2: int, y1: int, y2: int): (r: real)
    ensures y1 != y2 ==> (r - x1 as real) * (y2 - y1) as real == ((y - y1) * (x2 - x1)) as real
  {
    var deltaY := y2 - y1;
    if deltaY == 0 then x1 as real
    else ((y - y1) * (x2 - x1)) as real / deltaY as real + x1 as real
  }

  /** `compute_y_intersection` as the source writes it: for a vertical edge
      it returns `x1`, an x value, where a y value is due. */
  function ComputeYIntersectionAsWritten(x: int, x1: int, x2: int, y1: int, y2: int): (r: real)
    ensures x1 != x2 ==> (r - y1 as real) * (x2 - x1) as real == ((x - x1) * (y2 - y1)) as real
  {
    var deltaX := x2 - x1;
    if deltaX == 0 then x1 as real
    else ((x - x1) * (y2 - y1)) as real / deltaX as real + y1 as real
  }

  /** `compute_y_intersection` with the vertical-edge case returning `y1`,
      the mirror image of `ComputeXIntersection`. */
  function ComputeYIntersection(x: int, x1: int, x2: int, y1: int, y2: int): (r: real)
    ensures r == ComputeXIntersection(x, y1, y2, x1, x2)
  {
    var deltaX := x2 - x1;
    if deltaX == 0 then y1 as real
    else ((x - x1) * (y2 - y1)) as real / deltaX as real + y1 as real
  }

  /** The as-written vertical-edge case can answer a value outside the
      edge's y range, which the corrected version never does. */
  lemma YIntersectionDegenerateCase()
    ensures ComputeYIntersectionAsWritten(0, 100, 100, 0, 10) == 100.0
    ensures ComputeYIntersection(0, 100, 100, 0, 10) == 0.0
  {
  }

  /** The two versions differ only on vertical edges, which no straddling
      edge of a y scan is. */
  lemma YIntersectionVersionsAgree(x: int, x1: int, x2: int, y1: int, y2: int)
    requires Straddles(x, x1, x2)
    ensures ComputeYIntersectionAsWritten(x, x1, x2, y1, y2) == ComputeYIntersection(x, x1, x2, y1, y2)
  {
  }

  /** `y_intersections` as written calls the as-written
      `compute_y_intersection`; on the edges it selects that gives exactly
      the values of `YIntersections`. */
  lemma YIntersectionsMatchSource(x: int, xs: seq<int>, ys: seq<int>)
    requires |xs| == |ys|
    ensures var e := CrossingEdges(x, xs, Edges(xs));
      YIntersections(x, xs, ys)
        == seq(|e|, j requires 0 <= j < |e| =>
             ComputeYIntersectionAsWritten(x, xs[e[j]], xs[e[j] + 1], ys[e[j]], ys[e[j] + 1]))
  {
    var e := CrossingEdges(x, xs, Edges(xs));
    var l := YIntersections(x, xs, ys);
    var w := seq(|e|, j requires 0 <= j < |e| =>
      ComputeYIntersectionAsWritten(x, xs[e[j]], xs[e[j] + 1], ys[e[j]], ys[e[j] + 1]));
    forall j | 0 <= j < |e|
      ensures l[j] == w[j]
    {
      YIntersectionVersionsAgree(x, xs[e[j]], xs[e[j] + 1], ys[e[j]], ys[e[j] + 1]);
    }
    assert l == w;
  }

  /** Edge `i` straddles the line `sc == line` and `v` is the other
      coordinate of the point where the edge meets that line: it lies on the
      edge's line, between the edge's endpoints. `sc` holds the scanned
      coordinate, `ot` the other one. */
  predicate CrossingAt(line: int, sc: seq<int>, ot: seq<int>, i: int, v: real)
    requires |sc| == |ot|
  {
    && 0 <= i < Edges(sc)
    && Straddles(line, sc[i], sc[i + 1])
    && sc[i] != sc[i + 1]
    && Min(ot[i], ot[i + 1]) as real <= v <= Max(ot[i], ot[i + 1]) as real
    && (v - ot[i] as real) * (sc[i + 1] - sc[i]) as real == ((line - sc[i]) * (ot[i + 1] - ot[i])) as real
  }

  /** Multiplying both sides by a non-negative factor keeps the order. */
  lemma MulMonotone(a: real, b: real, c: real)
    requires a <= b && c >= 0.0
    ensures a * c <= b * c
  {
    assert b * c - a * c == (b - a) * c;
  }

  /** A positive factor can be cancelled from both sides. */
  lemma MulCancel(u: real, v: real, d: real)
    requires d > 0.0 && u * d <= v * d
    ensures u <= v
  {
    assert v * d - u * d == (v - u) * d;
  }

  /** If `u / w == a / d` with `0 <= a <= d` and `w >= 0`, then `u` lies
      between 0 and `w`. */
  lemma ProportionWithin(a: real, d: real, w: real, u: real)
    requires 0.0 <= a <= d && d > 0.0 && w >= 0.0 && u * d == a * w
    ensures 0.0 <= u <= w
  {
    MulMonotone(a, d, w);
    assert d * w == w * d;
    MulCancel(u, w, d);
    MulMonotone(0.0, a, w);
    assert 0.0 * d == 0.0;
    MulCancel(0.0, u, d);
  }

  /** The same with `a` and `d` of either common sign and `w` of either
      sign: `u` lies between 0 and `w`. */
  lemma ProportionBetween(a: real, d: real, w: real, u: real)
    requires (0.0 <= a <= d && d > 0.0) || (d <= a <= 0.0 && d < 0.0)
    requires u * d == a * w
    ensures w >= 0.0 ==> 0.0 <= u <= w
    ensures w < 0.0 ==> w <= u <= 0.0
  {
    if d > 0.0 && w >= 0.0 {
      ProportionWithin(a, d, w, u);
    } else if d > 0.0 {
      assert (-u) * d == a * (-w);
      ProportionWithin(a, d, -w, -u);
    } else if w >= 0.0 {
      assert u * (-d) == (-a) * w;
      ProportionWithin(-a, -d, w, u);
    } else {
      assert (-u) * (-d) == (-a) * (-w);
      ProportionWithin(-a, -d, -w, -u);
    }
  }

  /** Casting a product to a real multiplies the casts. */
  lemma CastProduct(m: int, n: int)
    ensures (m * n) as real == m as real * n as real
  {
  }

  /** A straddling edge is never horizontal, so the interpolation divides by
      a nonzero difference and lands between the edge's endpoints. */
  lemma InterpolationOnSegment(y: int, x1: int, x2: int, y1: int, y2: int)
    requires Straddles(y, y1, y2)
    ensures y1 != y2
    ensures Min(x1, x2) as real <= ComputeXIntersection(y, x1, x2, y1, y2) <= Max(x1, x2) as real
  {
    var d, a, w := (y2 - y1) as real, (y - y1) as real, (x2 - x1) as real;
    CastProduct(y - y1, x2 - x1);
    ProportionBetween(a, d, w, ComputeXIntersection(y, x1, x2, y1, y2) - x1 as real);
  }

  /** A straddling edge's interpolated crossing `v` is its meeting point
      with the scan line. */
  lemma EdgeCrossing(line: int, sc: seq<int>, ot: seq<int>, i: int, v: real)
    requires |sc| == |ot| && 0 <= i < Edges(sc)
    requires Straddles(line, sc[i], sc[i + 1])
    requires v == ComputeXIntersection(line, ot[i], ot[i + 1], sc[i], sc[i + 1])
    ensures CrossingAt(line, sc, ot, i, v)
  {
    InterpolationOnSegment(line, ot[i], ot[i + 1], sc[i], sc[i + 1]);
  }

  /** `x_intersections`: the crossing x of every edge straddling the line at
      `y`, in edge order; at most one per edge. */
  function XIntersections(y: int, xs: seq<int>, ys: seq<int>): (r: seq<real>)
    requires |xs| == |ys|
    ensures |r| == |CrossingEdges(y, ys, Edges(ys))| <= Edges(ys)
  {
    var e := CrossingEdges(y, ys, Edges(ys));
    seq(|e|, j requires 0 <= j < |e| =>
      ComputeXIntersection(y, xs[e[j]], xs[e[j] + 1], ys[e[j]], ys[e[j] + 1]))
  }

  /** Each x crossing is exactly where its edge meets the line at `y`. */
  lemma XIntersectionsOnEdges(y: int, xs: seq<int>, ys: seq<int>)
    requires |xs| == |ys|
    ensures var e, r := CrossingEdges(y, ys, Edges(ys)), XIntersections(y, xs, ys);
      forall j :: 0 <= j < |r| ==> CrossingAt(y, ys, xs, e[j], r[j])
  {
    var e, r := CrossingEdges(y, ys, Edges(ys)), XIntersections(y, xs, ys);
    forall j | 0 <= j < |r|
      ensures CrossingAt(y, ys, xs, e[j], r[j])
    {
      EdgeCrossing(y, ys, xs, e[j], r[j]);
    }
  }

  /** `y_intersections`: the crossing y of every edge straddling the line at
      `x`, in edge order; at most one per edge. */
  function YIntersections(x: int, xs: seq<int>, ys: seq<int>): (r: seq<real>)
    requires |xs| == |ys|
    ensures |r| == |CrossingEdges(x, xs, Edges(xs))| <= Edges(xs)
  {
    var e := CrossingEdges(x, xs, Edges(xs));
    seq(|e|, j requires 0 <= j < |e| =>
      ComputeYIntersection(x, xs[e[j]], xs[e[j] + 1], ys[e[j]], ys[e[j] + 1]))
  }

  /** Each y crossing is exactly where its edge meets the line at `x`. */
  lemma YIntersectionsOnEdges(x: int, xs: seq<int>, ys: seq<int>)
    requires |xs| == |ys|
    ensures var e, r := CrossingEdges(x, xs, Edges(xs)), YIntersections(x, xs, ys);
      forall j :: 0 <= j < |r| ==> CrossingAt(x, xs, ys, e[j], r[j])
  {
    var e, r := CrossingEdges(x, xs, Edges(xs)), YIntersections(x, xs, ys);
    forall j | 0 <= j < |r|
      ensures CrossingAt(x, xs, ys, e[j], r[j])
    {
      EdgeCrossing(x, xs, ys, e[j], r[j]);
    }
  }

  /** The ring closing of lines 288-289: the first point is appended. An
      empty polygon stays empty (the source appends a nil and still scans
      no edge). */
  function CloseRing(p: Polygon): (r: Polygon)
    requires p.WellFormed()
    ensures r.WellFormed()
    ensures |p.xs| > 0 ==> |r.xs| == |p.xs| + 1 && r.xs[..|p.xs|] == p.xs && r.ys[..|p.ys|] == p.ys
    ensures |r.xs| > 0 ==> r.xs[|r.xs| - 1] == r.xs[0] && r.ys[|r.ys| - 1] == r.ys[0]
  {
    if |p.xs| == 0 then p
    else Polygon(p.xs + [p.xs[0]], p.ys + [p.ys[0]])
  }

  /** The latitude scan's parity check (lines 299-307): an odd number of
      crossings is fatal. */
  function LatitudeCrossings(y: int, p: Polygon): (r: Result<seq<real>>)
    requires p.WellFormed()
    ensures r.Ok? ==> r.value == XIntersections(y, p.xs, p.ys)
    ensures r.Ok? <==> (p.ys == [] || (p.ys[0] > y) == (p.ys[|p.ys| - 1] > y))
  {
    var intersects := XIntersections(y, p.xs, p.ys);
    assert |p.ys| > 0 ==> |intersects| % 2 == if (p.ys[0] > y) == (p.ys[|p.ys| - 1] > y) then 0 else 1 by {
      if |p.ys| > 0 {
        CrossingParity(y, p.ys, |p.ys| - 1);
      }
    }
    if |intersects| % 2 == 1 then Err(UnevenIntersections) else Ok(intersects)
  }

  /** The longitude scan's parity check (lines 371-379). */
  function LongitudeCrossings(x: int, p: Polygon): (r: Result<seq<real>>)
    requires p.WellFormed()
    ensures r.Ok? ==> r.value == YIntersections(x, p.xs, p.ys)
    ensures r.Ok? <==> (p.xs == [] || (p.xs[0] > x) == (p.xs[|p.xs| - 1] > x))
  {
    var intersects := YIntersections(x, p.xs, p.ys);
    assert |p.xs| > 0 ==> |intersects| % 2 == if (p.xs[0] > x) == (p.xs[|p.xs| - 1] > x) then 0 else 1 by {
      if |p.xs| > 0 {
        CrossingParity(x, p.xs, |p.xs| - 1);
      }
    }
    if |intersects| % 2 == 1 then Err(UnevenIntersections) else Ok(intersects)
  }

  /** After ring closing neither scan can fail its parity check, on any line. */
  lemma ClosedRingScansSucceed(p: Polygon, x: int, y: int)
    requires p.WellFormed()
    ensures LatitudeCrossings(y, CloseRing(p)).Ok?
    ensures LongitudeCrossings(x, CloseRing(p)).Ok?
    ensures |XIntersections(y, CloseRing(p).xs, CloseRing(p).ys)| % 2 == 0
    ensures |YIntersections(x, CloseRing(p).xs, CloseRing(p).ys)| % 2 == 0
  {
    var q := CloseRing(p);
    if |q.xs| > 0 {
      ClosedRingEvenCrossings(y, q.ys);
      ClosedRingEvenCrossings(x, q.xs);
    }
  }
}

=== FILE: grid.dfy ===
/** The shortcut grid: 1 column per degree of longitude and 2 rows per degree
    of latitude, 360 x 360 cells. Column 0 starts at longitude -180, row 0
    at latitude +90 (rows count southwards). */
module Grid {
  import opened Seqs
  import opened Polygons

  /** Columns per degree of longitude; fixed by the file format. */
  const NrShortcutsPerLng: int := 1
  /** Rows per degree of latitude; fixed by the file format. */
  const NrShortcutsPerLat: int := 2

  /** A grid cell: column `x`, row `y`. */
  datatype Cell = Cell(x: int, y: int)

  /** `x_shortcut`: the column of a longitude, `floor((lng + 180) * 1)`. */
  function XShortcut(lng: int): (c: int)
    ensures c * Scale <= (lng + 180 * Scale) * NrShortcutsPerLng < (c + 1) * Scale
  {
    ((lng + 180 * Scale) * NrShortcutsPerLng) / Scale
  }

  /** `y_shortcut`: the row of a latitude, `floor((90 - lat) * 2)`. */
  function YShortcut(lat: int): (r: int)
    ensures r * Scale <= (90 * Scale - lat) * NrShortcutsPerLat < (r + 1) * Scale
  {
    ((90 * Scale - lat) * NrShortcutsPerLat) / Scale
  }

  /** Columns grow eastwards. */
  lemma XShortcutMonotone(a: int, b: int)
    requires a <= b
    ensures XShortcut(a) <= XShortcut(b)
  {
  }

  /** Rows grow southwards: a larger latitude never has a larger row. */
  lemma YShortcutAntitone(a: int, b: int)
    requires a <= b
    ensures YShortcut(b) <= YShortcut(a)
  {
  }

  /** Every longitude in [-180, 180) has a column in [0, 360), every
      latitude in (-90, 90] a row in [0, 360); the far edges land one past the
      table. */
  lemma ShortcutsOnGlobe(lng: int, lat: int)
    ensures -180 * Scale <= lng < 180 * Scale ==> 0 <= XShortcut(lng) < 360
    ensures -90 * Scale < lat <= 90 * Scale ==> 0 <= YShortcut(lat) < 360
    ensures XShortcut(180 * Scale) == 360 && YShortcut(-90 * Scale) == 360
  {
  }

  /** `big_zone`: the box is wider than 2 columns and taller than 2 rows. */
  predicate BigZone(b: Boundary) {
    && b.xmax - b.xmin > 2 * Scale / NrShortcutsPerLng
    && b.ymax - b.ymin > 2 * Scale / NrShortcutsPerLat
  }

  /** `included_shortcut_column_nrs`: the columns from the box's west edge to
      its east edge. */
  function Columns(b: Boundary): (r: seq<int>)
    ensures Ascending(r)
  {
    Range(XShortcut(b.xmin), XShortcut(b.xmax))
  }

  /** `included_shortcut_row_nrs`: the rows from the box's north edge to its
      south edge. */
  function Rows(b: Boundary): (r: seq<int>)
    ensures Ascending(r)
  {
    Range(YShortcut(b.ymax), YShortcut(b.ymin))
  }

  /** For a box that is not inverted both ranges are non-empty and run from
      the cell of one corner to the cell of the other. */
  lemma RangesOfProperBox(b: Boundary)
    requires b.xmax >= b.xmin && b.ymax >= b.ymin
    ensures |Columns(b)| > 0 && Columns(b)[0] == XShortcut(b.xmin) && Columns(b)[|Columns(b)| - 1] == XShortcut(b.xmax)
    ensures |Rows(b)| > 0 && Rows(b)[0] == YShortcut(b.ymax) && Rows(b)[|Rows(b)| - 1] == YShortcut(b.ymin)
  {
    XShortcutMonotone(b.xmin, b.xmax);
    YShortcutAntitone(b.ymin, b.ymax);
  }

  /** Every point of the box lies in a listed column and a listed row, so
      the product of the two ranges covers the whole box. */
  lemma BoxPointsListed(b: Boundary, lng: int, lat: int)
    requires b.xmin <= lng <= b.xmax && b.ymin <= lat <= b.ymax
    ensures XShortcut(lng) in Columns(b) && YShortcut(lat) in Rows(b)
  {
    XShortcutMonotone(b.xmin, lng);
    XShortcutMonotone(lng, b.xmax);
    YShortcutAntitone(b.ymin, lat);
    YShortcutAntitone(lat, b.ymax);
  }

  /** A big zone spans at least three columns and three rows, so its
      bounding-box product has at least nine cells. */
  lemma BigZoneSpansThreeByThree(b: Boundary)
    requires BigZone(b)
    ensures |Columns(b)| >= 3 && |Rows(b)| >= 3
  {
    assert XShortcut(b.xmax) >= XShortcut(b.xmin) + 2;
    assert YShortcut(b.ymin) >= YShortcut(b.ymax) + 2;
  }

  /** All cells of one column, in row order. */
  function ColumnCells(col: int, rows: seq<int>): (r: seq<Cell>)
    ensures |r| == |rows|
    ensures forall j :: 0 <= j < |rows| ==> r[j] == Cell(col, rows[j])
  {
    seq(|rows|, j requires 0 <= j < |rows| => Cell(col, rows[j]))
  }

  /** The small-zone path (lines 519-526): the cartesian product of the
      column and row ranges, column by column. */
  function SmallZoneCells(cols: seq<int>, rows: seq<int>): (r: seq<Cell>)
    ensures forall k :: 0 <= k < |r| ==> r[k].x in cols && r[k].y in rows
  {
    if |cols| == 0 then []
    else
      var head, rest := ColumnCells(cols[0], rows), SmallZoneCells(cols[1..], rows);
      assert forall k :: 0 <= k < |rest| ==> rest[k].x in cols by {
        forall k | 0 <= k < |rest|
          ensures rest[k].x in cols
        {
          var i :| 0 <= i < |cols| - 1 && cols[1..][i] == rest[k].x;
          assert cols[i + 1] == rest[k].x;
        }
      }
      head + rest
  }

  /** The product holds exactly the cells with a listed column and a
      listed row. */
  lemma {:induction false} SmallZoneMembers(cols: seq<int>, rows: seq<int>)
    ensures forall c :: c in SmallZoneCells(cols, rows) <==> c.x in cols && c.y in rows
  {
    if |cols| > 0 {
      SmallZoneMembers(cols[1..], rows);
      var head, rest := ColumnCells(cols[0], rows), SmallZoneCells(cols[1..], rows);
      assert SmallZoneCells(cols, rows) == head + rest;
      forall c: Cell
        ensures c in head + rest <==> c.x in cols && c.y in rows
      {
        if c in head {
          var j :| 0 <= j < |rows| && head[j] == c;
        }
        if c.x == cols[0] && c.y in rows {
          var j :| 0 <= j < |rows| && rows[j] == c.y;
          assert head[j] == c;
        }
        if c.x in cols && c.x != cols[0] {
          var i :| 0 <= i < |cols| && cols[i] == c.x;
          assert cols[1..][i - 1] == c.x;
        }
        if c.x in cols[1..] {
          var i :| 0 <= i < |cols| - 1 && cols[1..][i] == c.x;
          assert cols[i + 1] == c.x;
        }
      }
    }
  }

  /** The product has one entry per (column, row) pair. */
  lemma {:induction false} SmallZoneLength(cols: seq<int>, rows: seq<int>)
    ensures |SmallZoneCells(cols, rows)| == |cols| * |rows|
  {
    if |cols| > 0 {
      SmallZoneLength(cols[1..], rows);
      assert |cols| * |rows| == |rows| + (|cols| - 1) * |rows|;
    }
  }

  /** Where column `i` starts in the product: after `i` columns of `m`
      cells each. */
  function ColumnStart(i: nat, m: nat): nat {
    if i == 0 then 0 else m + ColumnStart(i - 1, m)
  }

  lemma {:induction false} ColumnStartIsProduct(i: nat, m: nat)
    ensures ColumnStart(i, m) == i * m
  {
    if i > 0 {
      ColumnStartIsProduct(i - 1, m);
      assert i * m == m + (i - 1) * m;
    }
  }

  lemma {:induction false} SmallZoneAtColumnStart(cols: seq<int>, rows: seq<int>, i: nat, j: nat)
    requires i < |cols| && j < |rows|
    ensures ColumnStart(i, |rows|) + j < |SmallZoneCells(cols, rows)|
    ensures SmallZoneCells(cols, rows)[ColumnStart(i, |rows|) + j] == Cell(cols[i], rows[j])
  {
    var head, rest := ColumnCells(cols[0], rows), SmallZoneCells(cols[1..], rows);
    assert SmallZoneCells(cols, rows) == head + rest;
    if i > 0 {
      SmallZoneAtColumnStart(cols[1..], rows, i - 1, j);
      assert cols[1..][i - 1] == cols[i];
    }
  }

  /** Column-major order: the pair (cols[i], rows[j]) sits at position
      i * |rows| + j. */
  lemma SmallZoneOrder(cols: seq<int>, rows: seq<int>, i: nat, j: nat)
    requires i < |cols| && j < |rows|
    ensures i * |rows| + j < |SmallZoneCells(cols, rows)|
    ensures SmallZoneCells(cols, rows)[i * |rows| + j] == Cell(cols[i], rows[j])
  {
    SmallZoneAtColumnStart(cols, rows, i, j);
    ColumnStartIsProduct(i, |rows|);
  }

  /** With duplicate-free ranges the product lists every cell once. */
  lemma {:induction false} SmallZoneDistinct(cols: seq<int>, rows: seq<int>)
    requires Distinct(cols) && Distinct(rows)
    ensures Distinct(SmallZoneCells(cols, rows))
  {
    if |cols| > 0 {
      var head := ColumnCells(cols[0], rows);
      var rest := SmallZoneCells(cols[1..], rows);
      SmallZoneDistinct(cols[1..], rows);
      SmallZoneMembers(cols[1..], rows);
      assert cols[0] !in cols[1..];
      var r := head + rest;
      forall p, q | 0 <= p < q < |r|
        ensures r[p] != r[q]
      {
        if q < |head| {
          assert r[p] == Cell(cols[0], rows[p]) && r[q] == Cell(cols[0], rows[q]);
        } else if p >= |head| {
          assert r[p] == rest[p - |head|] && r[q] == rest[q - |head|];
        } else {
          assert r[q] in rest;
          assert r[p].x == cols[0];
        }
      }
    }
  }

  /** The cells of the bounding-box product as a set: exactly
      |columns| * |rows| of them. */
  lemma BoxCellCount(cols: seq<int>, rows: seq<int>)
    requires Distinct(cols) && Distinct(rows)
    ensures |set c | c in SmallZoneCells(cols, rows)| == |cols| * |rows|
  {
    SmallZoneDistinct(cols, rows);
    DistinctCardinality(SmallZoneCells(cols, rows));
    SmallZoneLength(cols, rows);
  }
}

=== FILE: layout.dfy ===
/** The file layout of `compile_into_binary`. All multi-byte values are big
    endian. In order: the polygon count (uint16), the shortcut-section
    address (uint32), per polygon its zone id (uint16), its point count
    (uint16), its data address (uint32) and its bounding box (4 x int32),
    then every polygon's x values and y values (int32), then per grid cell
    its id count (uint16), then per grid cell the address of its id list
    (uint32, 0 when empty), then the id lists (uint16). Every address is
    computed from counts and lengths before the data it points to is
    written. */
module Layout {
  import opened Seqs
  import opened Errors
  import opened Polygons
  import opened Grid
  import opened Shortcuts
  import opened Packing

  /** A polygon as the encoder sees it: zone id, coordinates, bounding box. */
  datatype PolygonRecord = PolygonRecord(zoneId: int, polygon: Polygon, boundary: Boundary)

  /** Columns of the grid: `360 * NR_SHORTCUTS_PER_LNG` (see `GridSize`). */
  const NrColumns: int := 360
  /** Rows of the grid: `180 * NR_SHORTCUTS_PER_LAT` (see `GridSize`). */
  const NrRows: int := 360
  /** Cells of the grid (see `GridSize`). */
  const NrCells: int := 129_600

  /** The grid dimensions follow from the shortcut resolution, and the cell
      count agrees with the size check of line 628. */
  lemma GridSize()
    ensures NrColumns == 360 * NrShortcutsPerLng && NrRows == 180 * NrShortcutsPerLat
    ensures NrCells == NrColumns * NrRows == 64_800 * NrShortcutsPerLng * NrShortcutsPerLat
  {
  }

  /** Position of cell (x, y) in the shortcut tables: column-major, all rows
      of column 0 first. */
  function TableIndex(x: int, y: int): int {
    360 * x + y
  }
  /** The most ids one cell may list (line 635). */
  const MaxEntriesPerCell: int := 300

  /** `@all_lengths`: the point count of every polygon. */
  function Lengths(recs: seq<PolygonRecord>): (r: seq<int>)
    ensures |r| == |recs|
    ensures forall i :: 0 <= i < |recs| ==> r[i] == |recs[i].polygon.xs| >= 0
  {
    seq(|recs|, i requires 0 <= i < |recs| => recs[i].polygon.Length())
  }

  /** `zone_ids`: the zone id of every polygon. */
  function ZoneIds(recs: seq<PolygonRecord>): (r: seq<int>)
    ensures |r| == |recs|
    ensures forall i :: 0 <= i < |recs| ==> r[i] == recs[i].zoneId
  {
    seq(|recs|, i requires 0 <= i < |recs| => recs[i].zoneId)
  }

  /** `nr_of_floats` (lines 545-547): two values per point. */
  function NrOfFloats(lengths: seq<int>): (r: int)
    ensures r == 2 * Sum(lengths)
  {
    if |lengths| == 0 then 0 else NrOfFloats(lengths[..|lengths| - 1]) + 2 * lengths[|lengths| - 1]
  }

  /** `polygon_address` before the loop (line 556): the header's 6 bytes and
      24 bytes per polygon (zone id 2, length 2, address 4, box 16). */
  function PolygonDataStart(n: int): int {
    24 * n + 6
  }

  /** `shortcut_start_address` (line 559): 4 bytes per stored value after
      the polygon data start. */
  function ShortcutStart(recs: seq<PolygonRecord>): int {
    PolygonDataStart(|recs|) + 4 * NrOfFloats(Lengths(recs))
  }

  /** The addresses written by a loop and the address it ends on. */
  datatype AddressLoop = AddressLoop(written: seq<int>, next: int)

  /** The polygon address loop (lines 578-583): each polygon's data starts
      right after the 8 bytes per point of all earlier polygons. */
  function PolygonAddressLoop(lengths: seq<int>, start: int): (r: AddressLoop)
    ensures |r.written| == |lengths|
    ensures forall i :: 0 <= i < |lengths| ==> r.written[i] == start + 8 * Sum(lengths[..i])
    ensures r.next == start + 8 * Sum(lengths)
  {
    if |lengths| == 0 then AddressLoop([], start)
    else
      var n := |lengths| - 1;
      var p := PolygonAddressLoop(lengths[..n], start);
      assert forall i :: 0 <= i < n ==> lengths[..n][..i] == lengths[..i];
      assert lengths[..n] == lengths[..n];
      AddressLoop(p.written + [p.next], p.next + 8 * lengths[n])
  }

  /** The address check of lines 585-588 never fails: the loop ends exactly
      at the shortcut-section address announced in the header. */
  lemma AddressCheckPasses(recs: seq<PolygonRecord>)
    ensures PolygonAddressLoop(Lengths(recs), PolygonDataStart(|recs|)).next == ShortcutStart(recs)
  {
  }

  /** Value `q` of a bounding box in file order: xmax, xmin, ymax, ymin
      (lines 589-593). */
  function BoxValue(b: Boundary, q: int): int {
    if q == 0 then b.xmax else if q == 1 then b.xmin else if q == 2 then b.ymax else b.ymin
  }

  /** The four box values of every polygon, polygon by polygon. */
  function BoundaryValues(recs: seq<PolygonRecord>): (r: seq<int>)
    ensures |r| == 4 * |recs|
    ensures forall j :: 0 <= j < |r| ==> r[j] == BoxValue(recs[j / 4].boundary, j % 4)
  {
    seq(4 * |recs|, j requires 0 <= j < 4 * |recs| => BoxValue(recs[j / 4].boundary, j % 4))
  }

  /** One polygon's coordinate data: all x values, then all y values. */
  function PolygonBytes(p: Polygon): (r: seq<Byte>)
    ensures |r| == 4 * |p.xs| + 4 * |p.ys|
  {
    PackI32s(p.xs) + PackI32s(p.ys)
  }

  function PolygonChunks(recs: seq<PolygonRecord>): (r: seq<seq<Byte>>)
    ensures |r| == |recs|
    ensures forall i :: 0 <= i < |recs| ==> r[i] == PolygonBytes(recs[i].polygon)
  {
    seq(|recs|, i requires 0 <= i < |recs| => PolygonBytes(recs[i].polygon))
  }

  /** The grid cell at position `k` of the shortcut tables (lines 612-613). */
  function GridCell(k: int): Cell {
    Cell(k / 360, k % 360)
  }

  /** Cell (x, y) of the grid sits at position `TableIndex(x, y)`. */
  lemma GridCellIndex(x: int, y: int)
    requires 0 <= x < NrColumns && 0 <= y < NrRows
    ensures 0 <= TableIndex(x, y) < NrCells
    ensures GridCell(TableIndex(x, y)) == Cell(x, y)
  {
  }

  /** Every table position names a cell inside the grid. */
  lemma GridCellInRange(k: int)
    requires 0 <= k < NrCells
    ensures 0 <= GridCell(k).x < NrColumns && 0 <= GridCell(k).y < NrRows
    ensures TableIndex(GridCell(k).x, GridCell(k).y) == k
  {
  }

  /** The id list of every grid cell in table order (`shortcut_entries`,
      with empty lists for missing cells, which write nothing). */
  function CellLists(m: CellMap): (r: seq<seq<int>>)
    ensures |r| == NrCells
    ensures forall x, y {:trigger r[TableIndex(x, y)]} :: 0 <= x < NrColumns && 0 <= y < NrRows ==> r[TableIndex(x, y)] == Fetch(m, Cell(x, y))
  {
    var r := seq(NrCells, k requires 0 <= k < NrCells => Fetch(m, GridCell(k)));
    forall x, y | 0 <= x < NrColumns && 0 <= y < NrRows
      ensures r[TableIndex(x, y)] == Fetch(m, Cell(x, y))
    {
      GridCellIndex(x, y);
    }
    r
  }

  /** `nr_of_entries_in_shortcut` (lines 612-624): the list length of every
      grid cell, 0 for a cell without a list. */
  function Counts(m: CellMap): (r: seq<int>)
    ensures |r| == NrCells
    ensures forall x, y {:trigger r[TableIndex(x, y)]} :: 0 <= x < NrColumns && 0 <= y < NrRows ==> r[TableIndex(x, y)] == |Fetch(m, Cell(x, y))|
  {
    var r := seq(NrCells, k requires 0 <= k < NrCells => |Fetch(m, GridCell(k))|);
    forall x, y | 0 <= x < NrColumns && 0 <= y < NrRows
      ensures r[TableIndex(x, y)] == |Fetch(m, Cell(x, y))|
    {
      GridCellIndex(x, y);
    }
    r
  }

  /** Position `k` of the count table counts the list of the cell it names. */
  lemma CountAt(m: CellMap, k: int)
    requires 0 <= k < NrCells
    ensures Counts(m)[k] == |Fetch(m, GridCell(k))|
  {
  }

  /** The position of the first entry above `bound`, or `|s|` if none. */
  function FirstAbove(s: seq<int>, bound: int): (r: nat)
    ensures r <= |s|
    ensures r < |s| ==> s[r] > bound
    ensures forall j :: 0 <= j < r ==> s[j] <= bound
  {
    if |s| == 0 then 0
    else if s[0] > bound then 0
    else 1 + FirstAbove(s[1..], bound)
  }

  /** The cell address loop (lines 641-650): 0 for an empty cell; otherwise
      the running address, which then advances by 2 bytes per id. */
  function ShortcutAddressLoop(counts: seq<int>, start: int): (r: AddressLoop)
    ensures |r.written| == |counts|
    ensures forall i :: 0 <= i < |counts| ==>
              r.written[i] == if counts[i] == 0 then 0 else start + 2 * Sum(counts[..i])
    ensures r.next == start + 2 * Sum(counts)
  {
    if |counts| == 0 then AddressLoop([], start)
    else
      var n := |counts| - 1;
      var p := ShortcutAddressLoop(counts[..n], start);
      assert forall i :: 0 <= i < n ==> counts[..n][..i] == counts[..i];
      if counts[n] == 0 then AddressLoop(p.written + [0], p.next)
      else AddressLoop(p.written + [p.next], p.next + 2 * counts[n])
  }

  /** The cell addresses in closed form: 0 for an empty cell, otherwise
      `start` plus 2 bytes per id of every earlier cell. */
  function CellAddresses(counts: seq<int>, start: int): (r: seq<int>)
    ensures |r| == |counts|
  {
    seq(|counts|, i requires 0 <= i < |counts| => if counts[i] == 0 then 0 else start + 2 * Sum(counts[..i]))
  }

  /** The address loop writes exactly the closed-form addresses. */
  lemma AddressLoopWritesCellAddresses(counts: seq<int>, start: int)
    ensures ShortcutAddressLoop(counts, start).written == CellAddresses(counts, start)
  {
    var w, c := ShortcutAddressLoop(counts, start).written, CellAddresses(counts, start);
    forall i | 0 <= i < |counts|
      ensures w[i] == c[i]
    {
    }
  }

  /** The lists are packed back to back: the next non-empty cell's list
      starts right after the 2 bytes per id of the previous one. */
  lemma NextListAddress(counts: seq<int>, start: int, i: nat, j: nat)
    requires i < j < |counts| && counts[i] > 0 && counts[j] > 0
    requires forall k :: i < k < j ==> counts[k] == 0
    ensures var w := ShortcutAddressLoop(counts, start).written;
      w[j] == w[i] + 2 * counts[i]
  {
    SumStep(counts, i);
    SumOverZeros(counts, i + 1, j);
  }

  /** The first non-empty cell's list starts at the loop's start address. */
  lemma FirstListAtStart(counts: seq<int>, start: int, j: nat)
    requires j < |counts| && counts[j] > 0
    requires forall k :: 0 <= k < j ==> counts[k] == 0
    ensures ShortcutAddressLoop(counts, start).written[j] == start
  {
    SumOverZeros(counts, 0, j);
  }

  /** Every id of every cell list, in table order. */
  function AllEntries(m: CellMap): seq<int> {
    Flatten(CellLists(m))
  }

  function IdChunks(m: CellMap): (r: seq<seq<Byte>>)
    ensures |r| == NrCells
    ensures forall k :: 0 <= k < NrCells ==> r[k] == PackU16s(Fetch(m, GridCell(k)))
  {
    seq(NrCells, k requires 0 <= k < NrCells => PackU16s(Fetch(m, GridCell(k))))
  }

  /** The sections written before the cell address table. */
  function FrontSections(recs: seq<PolygonRecord>, m: CellMap): (r: seq<seq<Byte>>)
    ensures |r| == 7
  {
    var n := |recs|;
    var lengths := Lengths(recs);
    var start := PolygonDataStart(n);
    [ U16(n) + U32(ShortcutStart(recs)),
      PackU16s(ZoneIds(recs)),
      PackU16s(lengths),
      PackU32s(PolygonAddressLoop(lengths, start).written),
      PackI32s(BoundaryValues(recs)),
      Flatten(PolygonChunks(recs)),
      PackU16s(Counts(m)) ]
  }

  /** `output_file.tell + 259_200 * 1 * 2` at line 641: the file position
      after the count table plus the size of the address table. */
  function FirstListAddress(recs: seq<PolygonRecord>, m: CellMap): int {
    |Flatten(FrontSections(recs, m))| + 259_200 * NrShortcutsPerLng * NrShortcutsPerLat
  }

  /** All nine sections of the file, in write order. */
  function Sections(recs: seq<PolygonRecord>, m: CellMap): (r: seq<seq<Byte>>)
    ensures |r| == 9 && r[..7] == FrontSections(recs, m)
  {
    FrontSections(recs, m)
      + [ PackU32s(ShortcutAddressLoop(Counts(m), FirstListAddress(recs, m)).written),
          Flatten(IdChunks(m)) ]
  }

  /** The bytes the converter writes when none of its checks fails. */
  function File(recs: seq<PolygonRecord>, m: CellMap): seq<Byte> {
    Flatten(Sections(recs, m))
  }

  /** `compile_into_binary` after the shortcuts are built: the four runtime
      checks in write order, then the file. The address check and the table
      size check cannot fail; the build fails exactly when a cell lists more
      than 300 ids or a list holds an id beyond the polygon count. */
  function Compile(recs: seq<PolygonRecord>, m: CellMap): (r: Result<seq<Byte>>)
    ensures r.Err? ==> r.error.TooManyPolygonsInShortcut? || r.error.EntryOutOfRange?
    ensures r.Ok? <==>
              && (forall k :: 0 <= k < NrCells ==> |Fetch(m, GridCell(k))| <= MaxEntriesPerCell)
              && (forall j :: 0 <= j < |AllEntries(m)| ==> AllEntries(m)[j] <= |recs|)
    ensures r.Err? && r.error.TooManyPolygonsInShortcut? ==>
              exists k :: 0 <= k < NrCells && r.error.count == |Fetch(m, GridCell(k))| > MaxEntriesPerCell
    ensures r.Err? && r.error.EntryOutOfRange? ==>
              exists j :: 0 <= j < |AllEntries(m)| && r.error.entry == AllEntries(m)[j] > |recs|
    ensures r.Ok? ==> r.value == File(recs, m)
  {
    var n := |recs|;
    var lengths := Lengths(recs);
    var loop := PolygonAddressLoop(lengths, PolygonDataStart(n));
    if loop.next != ShortcutStart(recs) then Err(AddressMismatch)
    else
      var counts := Counts(m);
      if |counts| != NrCells then Err(WrongShortcutTableSize)
      else
        var over := FirstAbove(counts, MaxEntriesPerCell);
        if over < |counts| then
          CountAt(m, over);
          Err(TooManyPolygonsInShortcut(counts[over]))
        else
          assert forall k :: 0 <= k < NrCells ==> |Fetch(m, GridCell(k))| <= MaxEntriesPerCell by {
            forall k | 0 <= k < NrCells
              ensures |Fetch(m, GridCell(k))| <= MaxEntriesPerCell
            {
              CountAt(m, k);
            }
          }
          var entries := AllEntries(m);
          var bad := FirstAbove(entries, n);
          if bad < |entries| then Err(EntryOutOfRange(entries[bad]))
          else Ok(File(recs, m))
  }
}

=== FILE: layout_proofs.dfy ===
/** What a reader of the file finds where: every address field written by
    `compile_into_binary` points at the data it announces, and every value
    reads back as the value written, whenever the values fit their fields. */
module LayoutProofs {
  import opened Seqs
  import opened Polygons
  import opened Grid
  import opened Shortcuts
  import opened Packing
  import opened Layout

  /** Every polygon has as many y values as x values, as parsing ensures. */
  predicate AllWellFormed(recs: seq<PolygonRecord>) {
    forall i :: 0 <= i < |recs| ==> recs[i].polygon.WellFormed()
  }

  /** The data of polygon `i` is `8 * length` bytes long. */
  lemma PolygonChunkSizes(recs: seq<PolygonRecord>)
    requires AllWellFormed(recs)
    ensures forall i :: 0 <= i < |recs| ==> |PolygonChunks(recs)[i]| == 8 * Lengths(recs)[i]
  {
  }

  /** The polygon data takes 8 bytes per point. */
  lemma PolygonDataSize(recs: seq<PolygonRecord>)
    requires AllWellFormed(recs)
    ensures |Flatten(PolygonChunks(recs))| == 8 * Sum(Lengths(recs))
  {
    var n := |recs|;
    PolygonChunkSizes(recs);
    PrefixLengthScaled(PolygonChunks(recs), Lengths(recs), 8, n);
    FlattenLength(PolygonChunks(recs));
    assert Lengths(recs)[..n] == Lengths(recs);
  }

  /** The id lists take 2 bytes per entry. */
  lemma IdListSize(m: CellMap)
    ensures |Flatten(IdChunks(m))| == 2 * Sum(Counts(m))
  {
    PrefixLengthScaled(IdChunks(m), Counts(m), 2, NrCells);
    FlattenLength(IdChunks(m));
    assert Counts(m)[..NrCells] == Counts(m);
  }

  /** The size of each section in bytes. */
  lemma SectionSizes(recs: seq<PolygonRecord>, m: CellMap)
    requires AllWellFormed(recs)
    ensures var s, n := Sections(recs, m), |recs|;
      && |s[0]| == 6 && |s[1]| == 2 * n && |s[2]| == 2 * n && |s[3]| == 4 * n && |s[4]| == 16 * n
      && |s[5]| == 8 * Sum(Lengths(recs))
      && |s[6]| == 2 * NrCells && |s[7]| == 4 * NrCells
      && |s[8]| == 2 * Sum(Counts(m))
  {
    var s := Sections(recs, m);
    assert s[..7] == FrontSections(recs, m);
    assert s[5] == s[..7][5] == Flatten(PolygonChunks(recs));
    assert s[8] == Flatten(IdChunks(m));
    PolygonDataSize(recs);
    IdListSize(m);
  }

  /** The byte offset at which each section starts. With well-formed
      polygons the polygon data ends exactly at the header's shortcut
      address, and the first id list starts right after the two shortcut
      tables. */
  lemma SectionOffsets(recs: seq<PolygonRecord>, m: CellMap)
    requires AllWellFormed(recs)
    ensures var s, n := Sections(recs, m), |recs|;
      && PrefixLength(s, 1) == 6
      && PrefixLength(s, 2) == 6 + 2 * n
      && PrefixLength(s, 3) == 6 + 4 * n
      && PrefixLength(s, 4) == 6 + 8 * n
      && PrefixLength(s, 5) == PolygonDataStart(n)
      && PrefixLength(s, 6) == ShortcutStart(recs)
      && PrefixLength(s, 7) == ShortcutStart(recs) + 2 * NrCells
      && PrefixLength(s, 8) == ShortcutStart(recs) + 6 * NrCells
      && PrefixLength(s, 8) == FirstListAddress(recs, m)
      && |File(recs, m)| == ShortcutStart(recs) + 6 * NrCells + 2 * Sum(Counts(m))
  {
    var s, n := Sections(recs, m), |recs|;
    SectionSizes(recs, m);
    assert PrefixLength(s, 1) == 6;
    assert PrefixLength(s, 2) == 6 + 2 * n;
    assert PrefixLength(s, 3) == 6 + 4 * n;
    assert PrefixLength(s, 4) == 6 + 8 * n;
    assert PrefixLength(s, 5) == 6 + 24 * n;
    assert PrefixLength(s, 6) == ShortcutStart(recs);
    assert PrefixLength(s, 7) == ShortcutStart(recs) + 2 * NrCells;
    assert PrefixLength(s, 8) == ShortcutStart(recs) + 6 * NrCells;
    FlattenLength(FrontSections(recs, m));
    PrefixLengthOfPrefix(s, 7, 7);
    FlattenLength(s);
  }

  /** Section `k` of the file occupies the bytes from its offset on. */
  lemma SectionInFile(recs: seq<PolygonRecord>, m: CellMap, k: nat)
    requires k < 9
    ensures var s := Sections(recs, m);
      && PrefixLength(s, k) + |s[k]| <= |File(recs, m)|
      && File(recs, m)[PrefixLength(s, k)..PrefixLength(s, k) + |s[k]|] == s[k]
  {
    FlattenAt(Sections(recs, m), k);
  }

  /** The header occupies the first six bytes. */
  lemma HeaderBytes(recs: seq<PolygonRecord>, m: CellMap)
    requires AllWellFormed(recs)
    ensures 6 <= |File(recs, m)|
    ensures File(recs, m)[0..6] == U16(|recs|) + U32(ShortcutStart(recs))
  {
    SectionOffsets(recs, m);
    SectionInFile(recs, m, 0);
  }

  /** The zone id table follows the header. */
  lemma ZoneIdBytes(recs: seq<PolygonRecord>, m: CellMap)
    requires AllWellFormed(recs)
    ensures 6 + 2 * |recs| <= |File(recs, m)|
    ensures File(recs, m)[6..6 + 2 * |recs|] == PackU16s(ZoneIds(recs))
  {
    SectionOffsets(recs, m);
    SectionInFile(recs, m, 1);
  }

  /** The length table follows the zone ids. */
  lemma LengthBytes(recs: seq<PolygonRecord>, m: CellMap)
    requires AllWellFormed(recs)
    ensures 6 + 4 * |recs| <= |File(recs, m)|
    ensures File(recs, m)[6 + 2 * |recs|..6 + 4 * |recs|] == PackU16s(Lengths(recs))
  {
    SectionOffsets(recs, m);
    SectionInFile(recs, m, 2);
  }

  /** The polygon address table follows the lengths. */
  lemma AddressBytes(recs: seq<PolygonRecord>, m: CellMap)
    requires AllWellFormed(recs)
    ensures 6 + 8 * |recs| <= |File(recs, m)|
    ensures File(recs, m)[6 + 4 * |recs|..6 + 8 * |recs|]
              == PackU32s(PolygonAddressLoop(Lengths(recs), PolygonDataStart(|recs|)).written)
  {
    SectionOffsets(recs, m);
    SectionInFile(recs, m, 3);
  }

  /** The bounding box table follows the addresses. */
  lemma BoundaryBytes(recs: seq<PolygonRecord>, m: CellMap)
    requires AllWellFormed(recs)
    ensures PolygonDataStart(|recs|) <= |File(recs, m)|
    ensures File(recs, m)[6 + 8 * |recs|..PolygonDataStart(|recs|)] == PackI32s(BoundaryValues(recs))
  {
    var s := Sections(recs, m);
    SectionOffsets(recs, m);
    SectionInFile(recs, m, 4);
    assert s[4] == s[..7][4] == PackI32s(BoundaryValues(recs));
  }

  /** The coordinate data follows the boxes and ends at the shortcut address. */
  lemma PolygonDataBytes(recs: seq<PolygonRecord>, m: CellMap)
    requires AllWellFormed(recs)
    ensures PolygonDataStart(|recs|) <= ShortcutStart(recs) <= |File(recs, m)|
    ensures File(recs, m)[PolygonDataStart(|recs|)..ShortcutStart(recs)] == Flatten(PolygonChunks(recs))
  {
    var s := Sections(recs, m);
    SectionOffsets(recs, m);
    SectionInFile(recs, m, 5);
    assert s[5] == s[..7][5] == Flatten(PolygonChunks(recs));
    assert PrefixLength(s, 5) == PolygonDataStart(|recs|) && PrefixLength(s, 5) + |s[5]| == ShortcutStart(recs);
  }

  /** The count table starts at the header's shortcut address. */
  lemma CountBytes(recs: seq<PolygonRecord>, m: CellMap)
    requires AllWellFormed(recs)
    ensures 0 <= ShortcutStart(recs) && ShortcutStart(recs) + 2 * NrCells <= |File(recs, m)|
    ensures File(recs, m)[ShortcutStart(recs)..ShortcutStart(recs) + 2 * NrCells] == PackU16s(Counts(m))
  {
    var s := Sections(recs, m);
    SectionOffsets(recs, m);
    SectionInFile(recs, m, 6);
    assert s[6] == s[..7][6] == PackU16s(Counts(m));
    assert PrefixLength(s, 6) == ShortcutStart(recs) && PrefixLength(s, 6) + |s[6]| == ShortcutStart(recs) + 2 * NrCells;
  }

  /** The cell address table follows the counts. */
  lemma CellAddressBytes(recs: seq<PolygonRecord>, m: CellMap)
    requires AllWellFormed(recs)
    ensures 0 <= ShortcutStart(recs) && ShortcutStart(recs) + 6 * NrCells <= |File(recs, m)|
    ensures File(recs, m)[ShortcutStart(recs) + 2 * NrCells..ShortcutStart(recs) + 6 * NrCells]
              == PackU32s(CellAddresses(Counts(m), FirstListAddress(recs, m)))
  {
    var s := Sections(recs, m);
    SectionOffsets(recs, m);
    SectionInFile(recs, m, 7);
    AddressLoopWritesCellAddresses(Counts(m), FirstListAddress(recs, m));
    assert s[7] == PackU32s(ShortcutAddressLoop(Counts(m), FirstListAddress(recs, m)).written);
    assert PrefixLength(s, 7) == ShortcutStart(recs) + 2 * NrCells && PrefixLength(s, 7) + |s[7]| == ShortcutStart(recs) + 6 * NrCells;
  }

  /** The id lists close the file. */
  lemma IdListBytes(recs: seq<PolygonRecord>, m: CellMap)
    requires AllWellFormed(recs)
    ensures 0 <= FirstListAddress(recs, m)
    ensures FirstListAddress(recs, m) + |Flatten(IdChunks(m))| == |File(recs, m)|
    ensures File(recs, m)[FirstListAddress(recs, m)..] == Flatten(IdChunks(m))
  {
    var s := Sections(recs, m);
    SectionOffsets(recs, m);
    SectionInFile(recs, m, 8);
    assert s[8] == Flatten(IdChunks(m));
    FlattenLength(s);
    assert PrefixLength(s, 8) + |s[8]| == PrefixLength(s, 9) == |File(recs, m)|;
  }

  /** Reading inside a copy of `t` at `base` is reading `t`. */
  lemma ReadShift(s: seq<Byte>, base: nat, t: seq<Byte>, o: nat)
    requires base + |t| <= |s| && s[base..base + |t|] == t
    requires o + 4 <= |t|
    ensures ReadU16(s, base + o) == ReadU16(t, o)
    ensures ReadU32(s, base + o) == ReadU32(t, o)
  {
    assert s[base..base + |t|][o] == s[base + o];
    assert s[base..base + |t|][o + 1] == s[base + o + 1];
    assert s[base..base + |t|][o + 2] == s[base + o + 2];
    assert s[base..base + |t|][o + 3] == s[base + o + 3];
  }

  /** The polygon count, every zone id and every length fit 16 bits. */
  predicate TablesFit(recs: seq<PolygonRecord>) {
    && |recs| < TwoTo16
    && forall i :: 0 <= i < |recs| ==> 0 <= recs[i].zoneId < TwoTo16 && recs[i].polygon.Length() < TwoTo16
  }

  predicate FitsInt32(v: int) {
    -TwoTo31 <= v < TwoTo31
  }

  /** Every box value fits 32 bits. */
  predicate BoundaryFits(b: Boundary) {
    FitsInt32(b.xmax) && FitsInt32(b.xmin) && FitsInt32(b.ymax) && FitsInt32(b.ymin)
  }

  /** Every coordinate fits 32 bits. */
  predicate PolygonFits(p: Polygon) {
    && (forall k :: 0 <= k < |p.xs| ==> FitsInt32(p.xs[k]))
    && (forall k :: 0 <= k < |p.ys| ==> FitsInt32(p.ys[k]))
  }

  /** Where polygon `i`'s coordinate data starts: after the 8 bytes per
      point of every earlier polygon. */
  function PolygonAddress(recs: seq<PolygonRecord>, i: nat): (r: int)
    requires i <= |recs|
    ensures r >= PolygonDataStart(|recs|)
  {
    SumNonNegative(Lengths(recs)[..i]);
    PolygonDataStart(|recs|) + 8 * Sum(Lengths(recs)[..i])
  }

  /** Six bytes holding a packed uint16 and uint32 read back as both. */
  lemma HeaderAt(f: seq<Byte>, n: int, ss: int)
    requires 6 <= |f| && f[0..6] == U16(n) + U32(ss)
    requires 0 <= n < TwoTo16 && 0 <= ss < TwoTo32
    ensures ReadU16(f, 0) == n && ReadU32(f, 2) == ss
  {
    var h := U16(n) + U32(ss);
    ReadShift(f, 0, h, 0);
    ReadShift(f, 0, h, 2);
    assert h[0] == U16(n)[0] && h[1] == U16(n)[1];
    assert h[2] == U32(ss)[0] && h[3] == U32(ss)[1] && h[4] == U32(ss)[2] && h[5] == U32(ss)[3];
    U16RoundTrip(n);
    U32RoundTrip(ss);
  }

  /** A packed uint16 table, wherever it has been written, reads back
      entry by entry when the entries fit. */
  lemma U16TableAt(f: seq<Byte>, base: nat, vs: seq<int>, i: nat)
    requires base + 2 * |vs| <= |f| && f[base..base + 2 * |vs|] == PackU16s(vs)
    requires i < |vs| && 0 <= vs[i] < TwoTo16
    ensures base + 2 * i + 2 <= |f|
    ensures ReadU16(f, base + 2 * i) == vs[i]
  {
    ReadPackedU16(f, base, vs, i);
  }

  /** A packed uint32 table, wherever it has been written, reads back
      entry by entry when the entries fit. */
  lemma U32TableAt(f: seq<Byte>, base: nat, vs: seq<int>, i: nat)
    requires base + 4 * |vs| <= |f| && f[base..base + 4 * |vs|] == PackU32s(vs)
    requires i < |vs| && 0 <= vs[i] < TwoTo32
    ensures base + 4 * i + 4 <= |f|
    ensures ReadU32(f, base + 4 * i) == vs[i]
  {
    ReadPackedU32(f, base, vs, i);
  }

  /** The box table, wherever it has been written, reads back value by
      value. */
  lemma BoundaryAt(f: seq<Byte>, recs: seq<PolygonRecord>, i: nat, q: nat)
    requires i < |recs| && q < 4 && BoundaryFits(recs[i].boundary)
    requires 6 + 8 * |recs| <= PolygonDataStart(|recs|) <= |f|
    requires f[6 + 8 * |recs|..PolygonDataStart(|recs|)] == PackI32s(BoundaryValues(recs))
    ensures 6 + 8 * |recs| + 16 * i + 16 <= |f|
    ensures ReadI32(f, 6 + 8 * |recs| + 16 * i + 4 * q) == BoxValue(recs[i].boundary, q)
  {
    assert (4 * i + q) / 4 == i && (4 * i + q) % 4 == q;
    ReadPackedI32(f, 6 + 8 * |recs|, BoundaryValues(recs), 4 * i + q);
  }

  /** Polygon `i`'s chunk of the polygon data begins at its address and is
      `8 * length` bytes long. */
  lemma PolygonChunkOffset(recs: seq<PolygonRecord>, i: nat)
    requires AllWellFormed(recs) && i < |recs|
    ensures PolygonDataStart(|recs|) + PrefixLength(PolygonChunks(recs), i) == PolygonAddress(recs, i)
    ensures PolygonChunks(recs)[i] == PolygonBytes(recs[i].polygon)
    ensures |PolygonChunks(recs)[i]| == 8 * recs[i].polygon.Length()
  {
    PolygonChunkSizes(recs);
    PrefixLengthScaled(PolygonChunks(recs), Lengths(recs), 8, i);
  }

  /** `f` holds polygon `p`'s bytes at offset `a`. */
  predicate HasPolygon(f: seq<Byte>, a: int, p: Polygon) {
    0 <= a && a + 8 * p.Length() <= |f| && f[a..a + 8 * p.Length()] == PolygonBytes(p)
  }

  /** Within the polygon data, polygon `i`'s bytes start at its address. */
  lemma PolygonChunkAt(f: seq<Byte>, recs: seq<PolygonRecord>, i: nat)
    requires AllWellFormed(recs) && i < |recs| && HasPolygonData(f, recs)
    ensures HasPolygon(f, PolygonAddress(recs, i), recs[i].polygon)
  {
    PolygonChunkOffset(recs, i);
    ChunksAt(f, PolygonDataStart(|recs|), PolygonChunks(recs), i);
  }

  /** `f` holds the concatenation of `chunks` from offset `base` on. */
  predicate HasChunks(f: seq<Byte>, base: int, chunks: seq<seq<Byte>>) {
    0 <= base && base + |Flatten(chunks)| <= |f| && f[base..base + |Flatten(chunks)|] == Flatten(chunks)
  }

  /** Chunk `i` of a concatenation, wherever it has been written, sits at
      its prefix length from the start. */
  lemma ChunksAt(f: seq<Byte>, base: int, chunks: seq<seq<Byte>>, i: nat)
    requires i < |chunks| && HasChunks(f, base, chunks)
    ensures base + PrefixLength(chunks, i) + |chunks[i]| <= |f|
    ensures f[base + PrefixLength(chunks, i)..base + PrefixLength(chunks, i) + |chunks[i]|] == chunks[i]
  {
    ChunkAt(f, base, base + |Flatten(chunks)|, chunks, i, base + PrefixLength(chunks, i), |chunks[i]|);
  }

  /** A polygon's bytes, wherever they have been written, read back as its
      x values followed by its y values. */
  lemma PolygonBytesAt(f: seq<Byte>, a: nat, p: Polygon, k: nat)
    requires p.WellFormed() && PolygonFits(p) && k < p.Length() && HasPolygon(f, a, p)
    ensures a + 8 * p.Length() <= |f|
    ensures ReadI32(f, a + 4 * k) == p.xs[k]
    ensures ReadI32(f, a + 4 * p.Length() + 4 * k) == p.ys[k]
  {
    ConcatAt(f, a, PackI32s(p.xs), PackI32s(p.ys));
    ReadPackedI32(f, a, p.xs, k);
    ReadPackedI32(f, a + 4 * p.Length(), p.ys, k);
  }

  /** Polygon `i`'s data ends no later than the shortcut section starts. */
  lemma PolygonAddressBound(recs: seq<PolygonRecord>, i: nat)
    requires AllWellFormed(recs) && i < |recs|
    ensures PolygonAddress(recs, i) + 8 * recs[i].polygon.Length() <= ShortcutStart(recs)
  {
    var lengths := Lengths(recs);
    SumStep(lengths, i);
    SumPrefixBound(lengths, i + 1);
    assert ShortcutStart(recs) == PolygonDataStart(|recs|) + 8 * Sum(lengths);
  }

  /** The polygon address table, wherever it has been written, reads back
      as the address of each polygon's data. */
  lemma AddressTableAt(f: seq<Byte>, recs: seq<PolygonRecord>, i: nat)
    requires i < |recs| && 0 <= PolygonAddress(recs, i) < TwoTo32
    requires 6 + 8 * |recs| <= |f|
    requires f[6 + 4 * |recs|..6 + 8 * |recs|]
               == PackU32s(PolygonAddressLoop(Lengths(recs), PolygonDataStart(|recs|)).written)
    ensures ReadU32(f, 6 + 4 * |recs| + 4 * i) == PolygonAddress(recs, i)
  {
    var written := PolygonAddressLoop(Lengths(recs), PolygonDataStart(|recs|)).written;
    assert written[i] == PolygonAddress(recs, i);
    U32TableAt(f, 6 + 4 * |recs|, written, i);
  }

  /** The shortcut section starts no earlier than the polygon data. */
  lemma ShortcutStartNonNegative(recs: seq<PolygonRecord>)
    ensures ShortcutStart(recs) >= PolygonDataStart(|recs|)
  {
    SumNonNegative(Lengths(recs));
  }

  /** Where the id lists begin: after the count table (2 bytes per cell)
      and the cell address table (4 bytes per cell). */
  function ListsStart(recs: seq<PolygonRecord>): (r: int)
    ensures r >= PolygonDataStart(|recs|) + 6 * NrCells
  {
    ShortcutStartNonNegative(recs);
    ShortcutStart(recs) + 6 * NrCells
  }

  /** Cell (x, y)'s id list. */
  function CellList(m: CellMap, x: int, y: int): seq<int> {
    Fetch(m, Cell(x, y))
  }

  /** Where cell position `k`'s id list starts: after the 2 bytes per id of
      every earlier cell. */
  function ListAddress(recs: seq<PolygonRecord>, m: CellMap, k: nat): (r: int)
    requires k <= NrCells
    ensures r >= ListsStart(recs)
  {
    SumNonNegative(Counts(m)[..k]);
    ListsStart(recs) + 2 * Sum(Counts(m)[..k])
  }

  /** `f` holds the header at offset 0. */
  predicate HasHeader(f: seq<Byte>, recs: seq<PolygonRecord>) {
    6 <= |f| && f[0..6] == U16(|recs|) + U32(ShortcutStart(recs))
  }

  /** `f` holds the zone id table at offset 6. */
  predicate HasZoneIds(f: seq<Byte>, recs: seq<PolygonRecord>) {
    6 + 2 * |recs| <= |f| && f[6..6 + 2 * |recs|] == PackU16s(ZoneIds(recs))
  }

  /** `f` holds the length table at offset 6 + 2n. */
  predicate HasLengths(f: seq<Byte>, recs: seq<PolygonRecord>) {
    6 + 4 * |recs| <= |f| && f[6 + 2 * |recs|..6 + 4 * |recs|] == PackU16s(Lengths(recs))
  }

  /** `f` holds the polygon address table at offset 6 + 4n. */
  predicate HasAddresses(f: seq<Byte>, recs: seq<PolygonRecord>) {
    && 6 + 8 * |recs| <= |f|
    && f[6 + 4 * |recs|..6 + 8 * |recs|]
         == PackU32s(PolygonAddressLoop(Lengths(recs), PolygonDataStart(|recs|)).written)
  }

  /** `f` holds the box table at offset 6 + 8n. */
  predicate HasBoxes(f: seq<Byte>, recs: seq<PolygonRecord>) {
    && PolygonDataStart(|recs|) <= |f|
    && f[6 + 8 * |recs|..PolygonDataStart(|recs|)] == PackI32s(BoundaryValues(recs))
  }

  /** `f` holds the coordinates from offset 6 + 24n on. */
  predicate HasPolygonData(f: seq<Byte>, recs: seq<PolygonRecord>) {
    HasChunks(f, PolygonDataStart(|recs|), PolygonChunks(recs))
  }

  /** The coordinates end exactly at the shortcut address the header
      announces. */
  lemma PolygonDataEndsAtShortcutStart(recs: seq<PolygonRecord>)
    requires AllWellFormed(recs)
    ensures PolygonDataStart(|recs|) + |Flatten(PolygonChunks(recs))| == ShortcutStart(recs)
  {
    PolygonDataSize(recs);
  }

  /** `f` holds the count table at the shortcut address. */
  predicate HasCounts(f: seq<Byte>, recs: seq<PolygonRecord>, m: CellMap) {
    && 0 <= ShortcutStart(recs) && ShortcutStart(recs) + 2 * NrCells <= |f|
    && f[ShortcutStart(recs)..ShortcutStart(recs) + 2 * NrCells] == PackU16s(Counts(m))
  }

  /** `f` holds the cell address table right after the count table. */
  predicate HasCellAddresses(f: seq<Byte>, recs: seq<PolygonRecord>, m: CellMap) {
    && 0 <= ShortcutStart(recs) && ListsStart(recs) <= |f|
    && f[ShortcutStart(recs) + 2 * NrCells..ListsStart(recs)]
         == PackU32s(CellAddresses(Counts(m), ListsStart(recs)))
  }

  /** `f` ends with the id lists, right after the cell address table. */
  predicate HasIdLists(f: seq<Byte>, recs: seq<PolygonRecord>, m: CellMap) {
    0 <= ListsStart(recs) <= |f| && f[ListsStart(recs)..] == Flatten(IdChunks(m))
  }

  /** `f` holds the nine sections of the converter's file, each at the
      offset the header and the address tables announce. */
  predicate HasLayout(f: seq<Byte>, recs: seq<PolygonRecord>, m: CellMap) {
    && HasHeader(f, recs) && HasZoneIds(f, recs) && HasLengths(f, recs)
    && HasAddresses(f, recs) && HasBoxes(f, recs) && HasPolygonData(f, recs)
    && HasCounts(f, recs, m) && HasCellAddresses(f, recs, m) && HasIdLists(f, recs, m)
  }

  /** The first id list starts where the two shortcut tables end. */
  lemma FirstListAtListsStart(recs: seq<PolygonRecord>, m: CellMap)
    requires AllWellFormed(recs)
    ensures FirstListAddress(recs, m) == ListsStart(recs)
  {
    SectionOffsets(recs, m);
  }

  /** The first five sections of the file are where the header says. */
  lemma FileHasTables(recs: seq<PolygonRecord>, m: CellMap)
    requires AllWellFormed(recs)
    ensures var f := File(recs, m);
      HasHeader(f, recs) && HasZoneIds(f, recs) && HasLengths(f, recs) && HasAddresses(f, recs) && HasBoxes(f, recs)
  {
    HeaderBytes(recs, m);
    ZoneIdBytes(recs, m);
    LengthBytes(recs, m);
    AddressBytes(recs, m);
    BoundaryBytes(recs, m);
  }

  /** The coordinates and the shortcut sections of the file are where the
      header says. */
  lemma FileHasData(recs: seq<PolygonRecord>, m: CellMap)
    requires AllWellFormed(recs)
    ensures var f := File(recs, m);
      HasPolygonData(f, recs) && HasCounts(f, recs, m) && HasCellAddresses(f, recs, m) && HasIdLists(f, recs, m)
  {
    ShortcutStartNonNegative(recs);
    FirstListAtListsStart(recs, m);
    PolygonDataBytes(recs, m);
    PolygonDataEndsAtShortcutStart(recs);
    CountBytes(recs, m);
    CellAddressBytes(recs, m);
    IdListBytes(recs, m);
  }

  /** The bytes `compile_into_binary` writes have that layout. */
  lemma FileHasLayout(recs: seq<PolygonRecord>, m: CellMap)
    requires AllWellFormed(recs)
    ensures HasLayout(File(recs, m), recs, m)
  {
    FileHasTables(recs, m);
    FileHasData(recs, m);
  }

  /** The header reads back as the polygon count at offset 0 and the
      shortcut-section address at offset 2. */
  lemma HeaderReadBack(f: seq<Byte>, recs: seq<PolygonRecord>)
    requires HasHeader(f, recs) && TablesFit(recs) && ShortcutStart(recs) < TwoTo32
    ensures 6 <= |f|
    ensures ReadU16(f, 0) == |recs|
    ensures ReadU32(f, 2) == ShortcutStart(recs)
  {
    ShortcutStartNonNegative(recs);
    HeaderAt(f, |recs|, ShortcutStart(recs));
  }

  /** Polygon `i`'s zone id, at 6 + 2i. */
  lemma ZoneIdReadBack(f: seq<Byte>, recs: seq<PolygonRecord>, i: nat)
    requires HasZoneIds(f, recs) && TablesFit(recs) && i < |recs|
    ensures 6 + 2 * i + 2 <= |f|
    ensures ReadU16(f, 6 + 2 * i) == recs[i].zoneId
  {
    U16TableAt(f, 6, ZoneIds(recs), i);
  }

  /** Polygon `i`'s point count, at 6 + 2n + 2i. */
  lemma LengthReadBack(f: seq<Byte>, recs: seq<PolygonRecord>, i: nat)
    requires HasLengths(f, recs) && TablesFit(recs) && i < |recs|
    ensures 6 + 2 * |recs| + 2 * i + 2 <= |f|
    ensures ReadU16(f, 6 + 2 * |recs| + 2 * i) == recs[i].polygon.Length()
  {
    U16TableAt(f, 6 + 2 * |recs|, Lengths(recs), i);
  }

  /** Polygon `i`'s data address, at 6 + 4n + 4i. */
  lemma AddressReadBack(f: seq<Byte>, recs: seq<PolygonRecord>, i: nat)
    requires HasAddresses(f, recs) && AllWellFormed(recs) && ShortcutStart(recs) < TwoTo32 && i < |recs|
    ensures 6 + 4 * |recs| + 4 * i + 4 <= |f|
    ensures ReadU32(f, 6 + 4 * |recs| + 4 * i) == PolygonAddress(recs, i)
  {
    PolygonAddressBound(recs, i);
    AddressTableAt(f, recs, i);
  }

  /** Polygon `i`'s bounding box, at 6 + 8n + 16i in the order xmax, xmin,
      ymax, ymin. */
  lemma BoundaryReadBack(f: seq<Byte>, recs: seq<PolygonRecord>, i: nat)
    requires HasBoxes(f, recs) && i < |recs| && BoundaryFits(recs[i].boundary)
    ensures 6 + 8 * |recs| + 16 * i + 16 <= |f|
    ensures var base, b := 6 + 8 * |recs| + 16 * i, recs[i].boundary;
      && ReadI32(f, base) == b.xmax
      && ReadI32(f, base + 4) == b.xmin
      && ReadI32(f, base + 8) == b.ymax
      && ReadI32(f, base + 12) == b.ymin
  {
    BoundaryAt(f, recs, i, 0);
    BoundaryAt(f, recs, i, 1);
    BoundaryAt(f, recs, i, 2);
    BoundaryAt(f, recs, i, 3);
  }

  /** Polygon `i`'s coordinates: from the address its table entry
      announces, all x values and then all y values. */
  lemma PolygonDataReadBack(f: seq<Byte>, recs: seq<PolygonRecord>, i: nat, k: nat)
    requires HasPolygonData(f, recs) && AllWellFormed(recs)
    requires i < |recs| && PolygonFits(recs[i].polygon) && k < recs[i].polygon.Length()
    ensures PolygonAddress(recs, i) + 8 * recs[i].polygon.Length() <= |f|
    ensures var a, p := PolygonAddress(recs, i), recs[i].polygon;
      && ReadI32(f, a + 4 * k) == p.xs[k]
      && ReadI32(f, a + 4 * p.Length() + 4 * k) == p.ys[k]
  {
    PolygonChunkAt(f, recs, i);
    PolygonBytesAt(f, PolygonAddress(recs, i), recs[i].polygon, k);
  }

  /** The count table, wherever it has been written, holds cell (x, y)'s
      id count at position 360x + y. */
  lemma CountTableAt(f: seq<Byte>, base: nat, m: CellMap, x: int, y: int)
    requires 0 <= x < NrColumns && 0 <= y < NrRows && |CellList(m, x, y)| < TwoTo16
    requires base + 2 * NrCells <= |f| && f[base..base + 2 * NrCells] == PackU16s(Counts(m))
    ensures ReadU16(f, base + 2 * TableIndex(x, y)) == |CellList(m, x, y)|
  {
    GridCellIndex(x, y);
    assert Counts(m)[TableIndex(x, y)] == |CellList(m, x, y)|;
    U16TableAt(f, base, Counts(m), TableIndex(x, y));
  }

  /** Cell (x, y)'s id count, at position 360x + y of the count table that
      starts at the header's shortcut address. */
  lemma CountReadBack(f: seq<Byte>, recs: seq<PolygonRecord>, m: CellMap, x: int, y: int)
    requires HasCounts(f, recs, m)
    requires 0 <= x < NrColumns && 0 <= y < NrRows && |CellList(m, x, y)| <= MaxEntriesPerCell
    ensures 0 <= ShortcutStart(recs) && ShortcutStart(recs) + 2 * NrCells <= |f|
    ensures ReadU16(f, ShortcutStart(recs) + 2 * TableIndex(x, y)) == |CellList(m, x, y)|
  {
    CountTableAt(f, ShortcutStart(recs), m, x, y);
  }

  /** Every cell's id list ends within the file. */
  lemma ListWithinFile(f: seq<Byte>, recs: seq<PolygonRecord>, m: CellMap, k: nat)
    requires HasIdLists(f, recs, m) && k < NrCells
    ensures ListAddress(recs, m, k) + 2 * Counts(m)[k] <= |f|
  {
    IdListSize(m);
    SumStep(Counts(m), k);
    SumPrefixBound(Counts(m), k + 1);
  }

  /** The address written for cell (x, y): 0 for an empty cell, otherwise
      its list address, which 32 bits can hold. */
  lemma CellAddressValue(f: seq<Byte>, recs: seq<PolygonRecord>, m: CellMap, x: int, y: int)
    requires HasCellAddresses(f, recs, m) && HasIdLists(f, recs, m) && |f| <= TwoTo32
    requires 0 <= x < NrColumns && 0 <= y < NrRows
    ensures var w := CellAddresses(Counts(m), ListsStart(recs));
      && 0 <= TableIndex(x, y) < NrCells
      && 0 <= w[TableIndex(x, y)] < TwoTo32
      && (w[TableIndex(x, y)] == 0 <==> |CellList(m, x, y)| == 0)
      && (|CellList(m, x, y)| > 0 ==> w[TableIndex(x, y)] == ListAddress(recs, m, TableIndex(x, y)))
  {
    GridCellIndex(x, y);
    assert Counts(m)[TableIndex(x, y)] == |CellList(m, x, y)|;
    ListWithinFile(f, recs, m, TableIndex(x, y));
  }

  /** The cell address table, wherever it has been written, reads back as
      the addresses written. */
  lemma CellAddressTableAt(f: seq<Byte>, recs: seq<PolygonRecord>, m: CellMap, x: int, y: int)
    requires 0 <= ShortcutStart(recs) && ListsStart(recs) <= |f|
    requires f[ShortcutStart(recs) + 2 * NrCells..ListsStart(recs)]
               == PackU32s(CellAddresses(Counts(m), ListsStart(recs)))
    requires var w := CellAddresses(Counts(m), ListsStart(recs));
      && 0 <= TableIndex(x, y) < NrCells
      && 0 <= w[TableIndex(x, y)] < TwoTo32
      && (w[TableIndex(x, y)] == 0 <==> |CellList(m, x, y)| == 0)
      && (|CellList(m, x, y)| > 0 ==> w[TableIndex(x, y)] == ListAddress(recs, m, TableIndex(x, y)))
    ensures var a := ReadU32(f, ShortcutStart(recs) + 2 * NrCells + 4 * TableIndex(x, y));
      && (a == 0 <==> |CellList(m, x, y)| == 0)
      && (|CellList(m, x, y)| > 0 ==> a == ListAddress(recs, m, TableIndex(x, y)))
  {
    U32TableAt(f, ShortcutStart(recs) + 2 * NrCells, CellAddresses(Counts(m), ListsStart(recs)), TableIndex(x, y));
  }

  /** Cell (x, y)'s entry in the cell address table: 0 exactly when the
      cell lists no polygon, and otherwise the address of its id list. */
  lemma CellAddressReadBack(f: seq<Byte>, recs: seq<PolygonRecord>, m: CellMap, x: int, y: int)
    requires HasCellAddresses(f, recs, m) && HasIdLists(f, recs, m) && |f| <= TwoTo32
    requires 0 <= x < NrColumns && 0 <= y < NrRows
    ensures 0 <= ShortcutStart(recs) && ListsStart(recs) <= |f|
    ensures var a := ReadU32(f, ShortcutStart(recs) + 2 * NrCells + 4 * TableIndex(x, y));
      && (a == 0 <==> |CellList(m, x, y)| == 0)
      && (|CellList(m, x, y)| > 0 ==> a == ListAddress(recs, m, TableIndex(x, y)))
  {
    CellAddressValue(f, recs, m, x, y);
    CellAddressTableAt(f, recs, m, x, y);
  }

  /** Every id chunk holds 2 bytes per id. */
  lemma IdChunkSizes(m: CellMap)
    ensures forall k :: 0 <= k < NrCells ==> |IdChunks(m)[k]| == 2 * Counts(m)[k]
  {
    forall k | 0 <= k < NrCells
      ensures |IdChunks(m)[k]| == 2 * Counts(m)[k]
    {
      CountAt(m, k);
    }
  }

  /** Within the id lists, cell position `k`'s list starts at its address. */
  lemma IdChunkAt(f: seq<Byte>, recs: seq<PolygonRecord>, m: CellMap, k: nat)
    requires k < NrCells
    requires 0 <= ListsStart(recs) <= |f| && f[ListsStart(recs)..] == Flatten(IdChunks(m))
    ensures ListAddress(recs, m, k) + 2 * Counts(m)[k] <= |f|
    ensures f[ListAddress(recs, m, k)..ListAddress(recs, m, k) + 2 * Counts(m)[k]]
              == PackU16s(Fetch(m, GridCell(k)))
  {
    var chunks, counts := IdChunks(m), Counts(m);
    assert f[ListsStart(recs)..|f|] == Flatten(chunks);
    IdChunkSizes(m);
    PrefixLengthScaled(chunks, counts, 2, k);
    ChunkAt(f, ListsStart(recs), |f|, chunks, k, ListAddress(recs, m, k), 2 * counts[k]);
  }

  /** The id list of cell (x, y): entry `j` at its list address plus 2j
      reads back as the `j`-th polygon id of the cell. */
  lemma CellListReadBack(f: seq<Byte>, recs: seq<PolygonRecord>, m: CellMap, x: int, y: int, j: nat)
    requires HasIdLists(f, recs, m)
    requires 0 <= x < NrColumns && 0 <= y < NrRows && j < |CellList(m, x, y)|
    requires 0 <= CellList(m, x, y)[j] < TwoTo16
    ensures ListAddress(recs, m, TableIndex(x, y)) + 2 * |CellList(m, x, y)| <= |f|
    ensures ReadU16(f, ListAddress(recs, m, TableIndex(x, y)) + 2 * j) == CellList(m, x, y)[j]
  {
    GridCellIndex(x, y);
    assert Counts(m)[TableIndex(x, y)] == |CellList(m, x, y)|;
    IdChunkAt(f, recs, m, TableIndex(x, y));
    U16TableAt(f, ListAddress(recs, m, TableIndex(x, y)), CellList(m, x, y), j);
  }
}

=== FILE: packing.dfy ===
/** Ruby's big-endian `pack` directives as byte sequences: `S>` (uint16),
    `L>` (uint32) and `l>` (int32). `pack` keeps only the low 16 or 32 bits
    of its argument, so the packers take any integer and wrap it; the
    readers undo the packing for values in range. */
module Packing {
  import opened Seqs

  type Byte = b: int | 0 <= b < 256

  const TwoTo16: int := 0x1_0000
  const TwoTo31: int := 0x8000_0000
  const TwoTo32: int := 0x1_0000_0000

  /** `[v].pack('S>')`: the low 16 bits of `v`, most significant byte first. */
  function U16(v: int): (r: seq<Byte>)
    ensures |r| == 2
  {
    var w := v % TwoTo16;
    [w / 256, w % 256]
  }

  /** `[v].pack('L>')`: the low 32 bits of `v`, most significant byte first. */
  function U32(v: int): (r: seq<Byte>)
    ensures |r| == 4
  {
    var w := v % TwoTo32;
    var w1 := w / 256;
    var w2 := w1 / 256;
    [w2 / 256, w2 % 256, w1 % 256, w % 256]
  }

  /** `[v].pack('l>')`: two's complement, which for the low 32 bits is the
      same byte string as `L>`. */
  function I32(v: int): (r: seq<Byte>)
    ensures |r| == 4
  {
    U32(v)
  }

  /** The big-endian uint16 at offset `o`. */
  function ReadU16(s: seq<Byte>, o: nat): int
    requires o + 2 <= |s|
  {
    (s[o] as int) * 256 + s[o + 1] as int
  }

  /** The big-endian uint32 at offset `o`. */
  function ReadU32(s: seq<Byte>, o: nat): int
    requires o + 4 <= |s|
  {
    (((s[o] as int) * 256 + s[o + 1] as int) * 256 + s[o + 2] as int) * 256 + s[o + 3] as int
  }

  /** The big-endian two's-complement int32 at offset `o`. */
  function ReadI32(s: seq<Byte>, o: nat): int
    requires o + 4 <= |s|
  {
    var u := ReadU32(s, o);
    if u >= TwoTo31 then u - TwoTo32 else u
  }

  /** Reading back a packed uint16 gives the value modulo 2^16. */
  lemma U16RoundTrip(v: int)
    ensures ReadU16(U16(v), 0) == v % TwoTo16
  {
  }

  /** Reading back a packed uint32 gives the value modulo 2^32. */
  lemma U32RoundTrip(v: int)
    ensures ReadU32(U32(v), 0) == v % TwoTo32
  {
    var w := v % TwoTo32;
    var w1 := w / 256;
    var w2 := w1 / 256;
    assert w == w1 * 256 + w % 256;
    assert w1 == w2 * 256 + w1 % 256;
    assert w2 == (w2 / 256) * 256 + w2 % 256;
  }

  /** Reading back a packed int32 in range gives the value itself. */
  lemma I32RoundTrip(v: int)
    requires -TwoTo31 <= v < TwoTo31
    ensures ReadI32(I32(v), 0) == v
  {
    U32RoundTrip(v);
  }

  /** Reading at offset `o` is reading the bytes that start there. */
  lemma ReadSlice(s: seq<Byte>, o: nat, t: seq<Byte>)
    requires 2 <= |t| && o + |t| <= |s| && s[o..o + |t|] == t
    ensures ReadU16(s, o) == ReadU16(t, 0)
    ensures |t| >= 4 ==> ReadU32(s, o) == ReadU32(t, 0)
  {
    assert s[o] == t[0] && s[o + 1] == t[1];
    if |t| >= 4 {
      assert s[o + 2] == t[2] && s[o + 3] == t[3];
    }
  }

  /** Values packed one after another with `S>`. */
  function PackU16s(vs: seq<int>): (r: seq<Byte>)
    ensures |r| == 2 * |vs|
  {
    var chunks := seq(|vs|, i requires 0 <= i < |vs| => U16(vs[i]));
    FlattenLength(chunks);
    PrefixLengthUniform(chunks, 2, |chunks|);
    Flatten(chunks)
  }

  /** Values packed one after another with `L>`. */
  function PackU32s(vs: seq<int>): (r: seq<Byte>)
    ensures |r| == 4 * |vs|
  {
    var chunks := seq(|vs|, i requires 0 <= i < |vs| => U32(vs[i]));
    FlattenLength(chunks);
    PrefixLengthUniform(chunks, 4, |chunks|);
    Flatten(chunks)
  }

  /** Values packed one after another with `l>`. */
  function PackI32s(vs: seq<int>): (r: seq<Byte>)
    ensures |r| == 4 * |vs|
  {
    PackU32s(vs)
  }

  /** Entry `i` of a packed uint16 list, wherever the list sits in `s`, reads
      back as `vs[i]` modulo 2^16. */
  lemma ReadPackedU16(s: seq<Byte>, base: nat, vs: seq<int>, i: nat)
    requires base + 2 * |vs| <= |s| && s[base..base + 2 * |vs|] == PackU16s(vs)
    requires i < |vs|
    ensures base + 2 * i + 2 <= |s|
    ensures ReadU16(s, base + 2 * i) == vs[i] % TwoTo16
    ensures 0 <= vs[i] < TwoTo16 ==> ReadU16(s, base + 2 * i) == vs[i]
  {
    var chunks := seq(|vs|, j requires 0 <= j < |vs| => U16(vs[j]));
    FlattenAt(chunks, i);
    PrefixLengthUniform(chunks, 2, i);
    SliceOfSlice(s, base, PackU16s(vs), 2 * i, 2);
    ReadSlice(s, base + 2 * i, U16(vs[i]));
    U16RoundTrip(vs[i]);
  }

  /** Entry `i` of a packed uint32 list reads back as `vs[i]` modulo 2^32. */
  lemma ReadPackedU32(s: seq<Byte>, base: nat, vs: seq<int>, i: nat)
    requires base + 4 * |vs| <= |s| && s[base..base + 4 * |vs|] == PackU32s(vs)
    requires i < |vs|
    ensures base + 4 * i + 4 <= |s|
    ensures ReadU32(s, base + 4 * i) == vs[i] % TwoTo32
    ensures 0 <= vs[i] < TwoTo32 ==> ReadU32(s, base + 4 * i) == vs[i]
  {
    var chunks := seq(|vs|, j requires 0 <= j < |vs| => U32(vs[j]));
    FlattenAt(chunks, i);
    PrefixLengthUniform(chunks, 4, i);
    SliceOfSlice(s, base, PackU32s(vs), 4 * i, 4);
    ReadSlice(s, base + 4 * i, U32(vs[i]));
    U32RoundTrip(vs[i]);
  }

  /** Entry `i` of a packed int32 list reads back as `vs[i]` when it is in
      the int32 range. */
  lemma ReadPackedI32(s: seq<Byte>, base: nat, vs: seq<int>, i: nat)
    requires base + 4 * |vs| <= |s| && s[base..base + 4 * |vs|] == PackI32s(vs)
    requires i < |vs| && -TwoTo31 <= vs[i] < TwoTo31
    ensures base + 4 * i + 4 <= |s|
    ensures ReadI32(s, base + 4 * i) == vs[i]
  {
    ReadPackedU32(s, base, vs, i);
  }
}

=== FILE: parsing.dfy ===
/** The two pure steps of `parse_polygons_from_json` that follow the text
    scraping: splitting the scanned coordinate list into x and y values, and
    the bounding-box fold. */
module Parsing {
  import opened Errors
  import opened Polygons

  /** The alternating split of lines 117-124: even positions are x values,
      odd positions y values. */
  function Unzip(coords: seq<int>): (r: Polygon)
    ensures |r.xs| == (|coords| + 1) / 2 && |r.ys| == |coords| / 2
    ensures forall i :: 0 <= i < |r.xs| ==> r.xs[i] == coords[2 * i]
    ensures forall i :: 0 <= i < |r.ys| ==> r.ys[i] == coords[2 * i + 1]
  {
    if |coords| == 0 then Polygon([], [])
    else if |coords| == 1 then Polygon([coords[0]], [])
    else
      var rest := Unzip(coords[2..]);
      Polygon([coords[0]] + rest.xs, [coords[1]] + rest.ys)
  }

  /** Splitting plus the parity check of line 126: an odd number of values is
      a parse error; otherwise both lists have one entry per point. */
  function Deinterleave(coords: seq<int>): (r: Result<Polygon>)
    ensures r.Ok? <==> |coords| % 2 == 0
    ensures r.Err? ==> r.error == OddCoordinateCount(|coords|)
    ensures r.Ok? ==> r.value.WellFormed() && r.value.Length() == |coords| / 2
  {
    var p := Unzip(coords);
    if |coords| % 2 == 1 then Err(OddCoordinateCount(|coords|)) else Ok(p)
  }

  /** The coordinate list a well-formed polygon was scanned from:
      x0, y0, x1, y1, ... */
  function Interleave(p: Polygon): (r: seq<int>)
    requires p.WellFormed()
    ensures |r| == 2 * |p.xs|
  {
    seq(2 * |p.xs|, k requires 0 <= k < 2 * |p.xs| => if k % 2 == 0 then p.xs[k / 2] else p.ys[k / 2])
  }

  /** Splitting an even coordinate list and interleaving it again gives the
      list back. */
  lemma DeinterleaveThenInterleave(coords: seq<int>)
    requires |coords| % 2 == 0
    ensures Interleave(Deinterleave(coords).value) == coords
  {
    var p := Deinterleave(coords).value;
    var r := Interleave(p);
    forall k | 0 <= k < |coords|
      ensures r[k] == coords[k]
    {
      if k % 2 == 0 {
        assert 2 * (k / 2) == k;
      } else {
        assert 2 * (k / 2) + 1 == k;
      }
    }
  }

  /** Interleaving a well-formed polygon and splitting it again gives the
      polygon back. */
  lemma InterleaveThenDeinterleave(p: Polygon)
    requires p.WellFormed()
    ensures Deinterleave(Interleave(p)) == Ok(p)
  {
    var c := Interleave(p);
    var q := Deinterleave(c).value;
    assert (2 * |p.xs| + 1) / 2 == |p.xs|;
    forall i | 0 <= i < |p.xs|
      ensures q.xs[i] == p.xs[i] && q.ys[i] == p.ys[i]
    {
      assert (2 * i) % 2 == 0 && (2 * i) / 2 == i;
      assert (2 * i + 1) % 2 == 1 && (2 * i + 1) / 2 == i;
    }
    assert q.xs == p.xs && q.ys == p.ys;
  }

  /** `xmax = x if x > xmax` over the list, starting from `seed`. */
  function FoldMax(seed: int, s: seq<int>): (r: int)
    ensures r >= seed
    ensures forall i :: 0 <= i < |s| ==> s[i] <= r
    ensures r == seed || r in s
  {
    if |s| == 0 then seed
    else
      var m := FoldMax(seed, s[..|s| - 1]);
      assert forall i :: 0 <= i < |s| - 1 ==> s[..|s| - 1][i] == s[i];
      if s[|s| - 1] > m then s[|s| - 1] else m
  }

  /** `xmin = x if x < xmin` over the list, starting from `seed`. */
  function FoldMin(seed: int, s: seq<int>): (r: int)
    ensures r <= seed
    ensures forall i :: 0 <= i < |s| ==> r <= s[i]
    ensures r == seed || r in s
  {
    if |s| == 0 then seed
    else
      var m := FoldMin(seed, s[..|s| - 1]);
      assert forall i :: 0 <= i < |s| - 1 ==> s[..|s| - 1][i] == s[i];
      if s[|s| - 1] < m then s[|s| - 1] else m
  }

  /** The bounding box of lines 132-147, seeded with xmax = -180, xmin = 180,
      ymax = -90, ymin = 90 (in fixed point): it encloses every point. */
  function BoundingBox(p: Polygon): (b: Boundary)
    requires p.WellFormed()
    ensures forall i :: 0 <= i < |p.xs| ==>
              b.xmin <= p.xs[i] <= b.xmax && b.ymin <= p.ys[i] <= b.ymax
    ensures b.xmax >= -180 * Scale && b.xmin <= 180 * Scale
    ensures b.ymax >= -90 * Scale && b.ymin <= 90 * Scale
  {
    Boundary(FoldMax(-180 * Scale, p.xs), FoldMin(180 * Scale, p.xs),
             FoldMax(-90 * Scale, p.ys), FoldMin(90 * Scale, p.ys))
  }

  /** Every side of the box is its seed or a coordinate of the polygon. */
  lemma BoundingBoxAttained(p: Polygon)
    requires p.WellFormed()
    ensures var b := BoundingBox(p);
      && (b.xmax == -180 * Scale || b.xmax in p.xs) && (b.xmin == 180 * Scale || b.xmin in p.xs)
      && (b.ymax == -90 * Scale || b.ymax in p.ys) && (b.ymin == 90 * Scale || b.ymin in p.ys)
  {
  }

  /** Every coordinate within the world's range. */
  predicate OnGlobe(p: Polygon) {
    && (forall i :: 0 <= i < |p.xs| ==> -180 * Scale <= p.xs[i] <= 180 * Scale)
    && (forall i :: 0 <= i < |p.ys| ==> -90 * Scale <= p.ys[i] <= 90 * Scale)
  }

  /** For a non-empty polygon on the globe the seeds never win: the box is
      the exact coordinate range, attained by the polygon's own points. */
  lemma BoundingBoxIsExact(p: Polygon)
    requires p.WellFormed() && |p.xs| > 0 && OnGlobe(p)
    ensures var b := BoundingBox(p);
      && b.xmax in p.xs && b.xmin in p.xs && b.ymax in p.ys && b.ymin in p.ys
      && b.xmin <= b.xmax && b.ymin <= b.ymax
  {
    var b := BoundingBox(p);
    BoundingBoxAttained(p);
    assert p.xs[0] in p.xs && p.ys[0] in p.ys;
  }

  /** A polygon without points keeps the seeds: an inverted box. */
  lemma EmptyPolygonBoundingBox()
    ensures BoundingBox(Polygon([], [])) == Boundary(-180 * Scale, 180 * Scale, -90 * Scale, 90 * Scale)
  {
  }
}

=== FILE: polygons.dfy ===
/** The converter's polygon data: coordinates are fixed-point integers, the
    degree value multiplied by 10^7 (`Helpers.coord2int`). */
module Polygons {

  /** 10^7: one degree in fixed-point units. */
  const Scale: int := 10_000_000

  /** A polygon as parsed: its x (longitude) and y (latitude) values, in
      input order. Edges join consecutive points; there is no implicit
      closing edge unless the ring repeats its first point. */
  datatype Polygon = Polygon(xs: seq<int>, ys: seq<int>) {
    /** The number of points as the converter records it (`x_coords.length`). */
    function Length(): nat {
      |xs|
    }

    /** Both coordinate lists have the same length, as after parsing. */
    predicate WellFormed() {
      |xs| == |ys|
    }
  }

  /** A bounding box in the order the converter stores and writes it. */
  datatype Boundary = Boundary(xmax: int, xmin: int, ymax: int, ymin: int)
}

=== FILE: seqs.dfy ===
/** Sequence facts shared by the converter's modules: duplicate freedom,
    ascending integer lists, first-index search, integer ranges and
    concatenation of chunk lists. */
module Seqs {

  /** No element occurs twice. */
  predicate Distinct<T(==)>(s: seq<T>) {
    forall i, j :: 0 <= i < j < |s| ==> s[i] != s[j]
  }

  /** Strictly ascending integers (hence also duplicate free). */
  predicate Ascending(s: seq<int>) {
    forall i, j :: 0 <= i < j < |s| ==> s[i] < s[j]
  }

  /** Ruby's `Array#index`: the first position holding `x`, or `|s|` when
      `x` does not occur (where Ruby answers nil). */
  function IndexOf<T(==)>(s: seq<T>, x: T): (r: nat)
    ensures r <= |s|
    ensures r < |s| <==> x in s
    ensures r < |s| ==> s[r] == x
    ensures forall j :: 0 <= j < r ==> s[j] != x
  {
    if |s| == 0 then 0
    else if s[0] == x then 0
    else 1 + IndexOf(s[1..], x)
  }

  /** Ruby's `(lo..hi).to_a`: the integers from `lo` to `hi` inclusive,
      empty when `lo > hi`. */
  function Range(lo: int, hi: int): (r: seq<int>)
    ensures |r| == if lo <= hi then hi - lo + 1 else 0
    ensures Ascending(r)
    ensures forall v :: v in r <==> lo <= v <= hi
    ensures lo <= hi ==> r[0] == lo && r[|r| - 1] == hi
  {
    var r := seq(if lo <= hi then hi - lo + 1 else 0, i => lo + i);
    forall v | lo <= v <= hi
      ensures v in r
    {
      assert r[v - lo] == v;
    }
    r
  }

  /** Concatenation of a list of chunks, in order. */
  function Flatten<T>(chunks: seq<seq<T>>): (r: seq<T>)
  {
    if |chunks| == 0 then [] else Flatten(chunks[..|chunks| - 1]) + chunks[|chunks| - 1]
  }

  /** Total length of the first `k` chunks. */
  function PrefixLength<T>(chunks: seq<seq<T>>, k: nat): nat
    requires k <= |chunks|
  {
    if k == 0 then 0 else PrefixLength(chunks, k - 1) + |chunks[k - 1]|
  }

  /** Every element of a flattening comes from one of the chunks. */
  lemma {:induction false} FlattenMember<T>(chunks: seq<seq<T>>, j: nat)
    requires j < |Flatten(chunks)|
    ensures exists k :: 0 <= k < |chunks| && Flatten(chunks)[j] in chunks[k]
  {
    var n := |chunks| - 1;
    var p := chunks[..n];
    assert Flatten(chunks) == Flatten(p) + chunks[n];
    if j < |Flatten(p)| {
      FlattenMember(p, j);
      var k :| 0 <= k < |p| && Flatten(p)[j] in p[k];
      assert p[k] == chunks[k];
    } else {
      assert Flatten(chunks)[j] == chunks[n][j - |Flatten(p)|];
    }
  }

  lemma {:induction false} FlattenLength<T>(chunks: seq<seq<T>>)
    ensures |Flatten(chunks)| == PrefixLength(chunks, |chunks|)
  {
    if |chunks| > 0 {
      var p := chunks[..|chunks| - 1];
      FlattenLength(p);
      PrefixLengthOfPrefix(chunks, |chunks| - 1, |chunks| - 1);
    }
  }

  lemma {:induction false} PrefixLengthOfPrefix<T>(chunks: seq<seq<T>>, n: nat, k: nat)
    requires k <= n <= |chunks|
    ensures PrefixLength(chunks[..n], k) == PrefixLength(chunks, k)
  {
    if k > 0 {
      PrefixLengthOfPrefix(chunks, n, k - 1);
    }
  }

  /** Chunk `k` sits in the flattening right after the first `k` chunks. */
  lemma {:induction false} FlattenAt<T>(chunks: seq<seq<T>>, k: nat)
    requires k < |chunks|
    ensures PrefixLength(chunks, k) + |chunks[k]| <= |Flatten(chunks)|
    ensures Flatten(chunks)[PrefixLength(chunks, k)..PrefixLength(chunks, k) + |chunks[k]|] == chunks[k]
  {
    var n := |chunks| - 1;
    var p := chunks[..n];
    FlattenLength(p);
    PrefixLengthOfPrefix(chunks, n, n);
    if k == n {
      PrefixLengthOfPrefix(chunks, n, k);
    } else {
      FlattenAt(p, k);
      PrefixLengthOfPrefix(chunks, n, k);
      PrefixLengthOfPrefix(chunks, n, k + 1);
      PrefixLengthMonotone(chunks, k + 1, n);
      assert Flatten(chunks) == Flatten(p) + chunks[n];
    }
  }

  lemma {:induction false} PrefixLengthMonotone<T>(chunks: seq<seq<T>>, j: nat, k: nat)
    requires j <= k <= |chunks|
    ensures PrefixLength(chunks, j) <= PrefixLength(chunks, k)
  {
    if j < k {
      PrefixLengthMonotone(chunks, j, k - 1);
    }
  }

  /** When every chunk has width `w`, the first `k` chunks take `w * k`
      elements. */
  lemma {:induction false} PrefixLengthUniform<T>(chunks: seq<seq<T>>, w: nat, k: nat)
    requires k <= |chunks|
    requires forall i :: 0 <= i < |chunks| ==> |chunks[i]| == w
    ensures PrefixLength(chunks, k) == w * k
  {
    if k > 0 {
      PrefixLengthUniform(chunks, w, k - 1);
    }
  }

  /** A duplicate-free sequence has as many distinct elements as entries. */
  lemma {:induction false} DistinctCardinality<T>(s: seq<T>)
    requires Distinct(s)
    ensures |set x | x in s| == |s|
  {
    if |s| > 0 {
      var p := s[..|s| - 1];
      DistinctCardinality(p);
      assert (set x | x in s) == (set x | x in p) + {s[|s| - 1]};
      assert s[|s| - 1] !in p;
    }
  }

  /** The sum of a list, accumulated front to back. */
  function Sum(s: seq<int>): int {
    if |s| == 0 then 0 else Sum(s[..|s| - 1]) + s[|s| - 1]
  }

  /** The prefix sums grow by one entry at a time. */
  lemma SumStep(s: seq<int>, i: nat)
    requires i < |s|
    ensures Sum(s[..i + 1]) == Sum(s[..i]) + s[i]
  {
    assert s[..i + 1][..i] == s[..i];
  }

  /** A sum of non-negative entries is non-negative. */
  lemma {:induction false} SumNonNegative(s: seq<int>)
    requires forall k :: 0 <= k < |s| ==> s[k] >= 0
    ensures Sum(s) >= 0
  {
    if |s| > 0 {
      SumNonNegative(s[..|s| - 1]);
    }
  }

  /** With non-negative entries every prefix sum lies between 0 and the
      whole sum. */
  lemma {:induction false} SumPrefixBound(s: seq<int>, i: nat)
    requires i <= |s|
    requires forall k :: 0 <= k < |s| ==> s[k] >= 0
    ensures 0 <= Sum(s[..i]) <= Sum(s)
    decreases |s| - i
  {
    SumNonNegative(s[..i]);
    if i < |s| {
      SumPrefixBound(s, i + 1);
      SumStep(s, i);
    } else {
      assert s[..i] == s;
    }
  }

  /** When chunk `j` is `w * sizes[j]` long, the first `i` chunks take
      `w` times the sum of the first `i` sizes. */
  lemma {:induction false} PrefixLengthScaled<T>(chunks: seq<seq<T>>, sizes: seq<int>, w: int, i: nat)
    requires |sizes| == |chunks| && i <= |chunks|
    requires forall j :: 0 <= j < |chunks| ==> |chunks[j]| == w * sizes[j]
    ensures PrefixLength(chunks, i) == w * Sum(sizes[..i])
  {
    if i > 0 {
      PrefixLengthScaled(chunks, sizes, w, i - 1);
      SumStep(sizes, i - 1);
    }
  }

  /** Each step of a strictly ascending sequence climbs by at least one. */
  lemma {:induction false} AscendingClimbs(s: seq<int>, j: nat)
    requires Ascending(s) && j < |s|
    ensures s[j] >= s[0] + j
  {
    if j > 0 {
      AscendingClimbs(s, j - 1);
    }
  }

  /** A strictly ascending sequence of values in `[lo, hi)` has at most
      `hi - lo` entries. */
  lemma AscendingWithin(s: seq<int>, lo: int, hi: int)
    requires Ascending(s) && forall k :: 0 <= k < |s| ==> lo <= s[k] < hi
    ensures |s| <= if hi > lo then hi - lo else 0
  {
    if |s| > 0 {
      AscendingClimbs(s, |s| - 1);
    }
  }

  /** A slice of a slice is a slice. */
  lemma SliceOfSlice<T>(s: seq<T>, base: nat, t: seq<T>, o: nat, w: nat)
    requires base + |t| <= |s| && s[base..base + |t|] == t
    requires o + w <= |t|
    ensures s[base + o..base + o + w] == t[o..o + w]
  {
    var a, b := s[base + o..base + o + w], t[o..o + w];
    forall k | 0 <= k < w
      ensures a[k] == b[k]
    {
      assert s[base..base + |t|][o + k] == s[base + o + k];
    }
    assert a == b;
  }

  /** Wherever a concatenation has been copied, its two parts sit one
      after the other. */
  lemma ConcatAt<T>(s: seq<T>, base: nat, t: seq<T>, u: seq<T>)
    requires base + |t| + |u| <= |s| && s[base..base + |t| + |u|] == t + u
    ensures s[base..base + |t|] == t
    ensures s[base + |t|..base + |t| + |u|] == u
  {
    SliceOfSlice(s, base, t + u, 0, |t|);
    assert (t + u)[0..|t|] == t;
    SliceOfSlice(s, base, t + u, |t|, |u|);
    assert (t + u)[|t|..|t| + |u|] == u;
  }

  /** Wherever a flattened sequence has been copied, chunk `i` sits at its
      prefix length from the start of the copy. */
  lemma ChunkAt<T>(s: seq<T>, base: nat, end: nat, chunks: seq<seq<T>>, i: nat, a: nat, w: nat)
    requires i < |chunks| && a == base + PrefixLength(chunks, i) && w == |chunks[i]|
    requires base <= end <= |s| && s[base..end] == Flatten(chunks)
    ensures a + w <= |s|
    ensures s[a..a + w] == chunks[i]
  {
    var flat, o := Flatten(chunks), PrefixLength(chunks, i);
    assert s[base..base + |flat|] == flat;
    FlattenAt(chunks, i);
    assert flat[o..o + w] == chunks[i];
    SliceOfSlice(s, base, flat, o, w);
    assert s[base + o..base + o + w] == flat[o..o + w];
  }

  /** Zero entries leave a prefix sum unchanged. */
  lemma {:induction false} SumOverZeros(s: seq<int>, i: nat, j: nat)
    requires i <= j <= |s|
    requires forall k :: i <= k < j ==> s[k] == 0
    ensures Sum(s[..j]) == Sum(s[..i])
    decreases j - i
  {
    if i < j {
      SumOverZeros(s, i, j - 1);
      SumStep(s, j - 1);
    }
  }
}

=== FILE: shortcuts.dfy ===
/** `construct_shortcuts`: the cells each polygon is indexed under, and the
    per-cell lists of polygon ids. The exact cell set of a big zone comes
    from the floating-point span walk of `compute_exact_shortcuts`, which is
    not modelled; it enters here as a parameter and is clipped and checked
    as the source does. */
module Shortcuts {
  import opened Seqs
  import opened Errors
  import opened Polygons
  import opened Grid

  /** The cells of a box's column-by-row product, as a set. */
  function BoxCells(b: Boundary): set<Cell> {
    set c | c in SmallZoneCells(Columns(b), Rows(b))
  }

  /** The box product has one cell per (column, row) pair. */
  lemma BoxCellsCount(b: Boundary)
    ensures |BoxCells(b)| == |Columns(b)| * |Rows(b)|
  {
    BoxCellCount(Columns(b), Rows(b));
  }

  /** The clipping of lines 477-493: exact cells west of the first column,
      east of the last, north of the first row or south of the last are
      dropped. What remains are exactly the exact cells inside the box
      product, so there are never more of them than the product has. */
  function Clip(exact: set<Cell>, b: Boundary): (r: set<Cell>)
    requires |Columns(b)| > 0 && |Rows(b)| > 0
    ensures r <= exact
    ensures forall c :: c in r <==> c in exact && c in BoxCells(b)
    ensures |r| <= |Columns(b)| * |Rows(b)|
  {
    var cols, rows := Columns(b), Rows(b);
    var minX, maxX := cols[0], cols[|cols| - 1];
    var minY, maxY := rows[0], rows[|rows| - 1];
    var r := set c | c in exact && !(c.x < minX) && !(c.x > maxX) && !(c.y < minY) && !(c.y > maxY);
    SmallZoneMembers(cols, rows);
    assert r <= BoxCells(b);
    BoxCellsCount(b);
    SubsetCardinality(r, BoxCells(b));
    r
  }

  lemma SubsetCardinality(a: set<Cell>, b: set<Cell>)
    requires a <= b
    ensures |a| <= |b|
  {
    assert b == a + (b - a);
  }

  /** The big-zone path with the two sanity checks of lines 510-515. The
      "more shortcuts than before" check can never fire; only a clipped set
      of fewer than three cells fails. */
  function LargeZoneCells(line: nat, b: Boundary, exact: set<Cell>): (r: Result<set<Cell>>)
    requires |Columns(b)| > 0 && |Rows(b)| > 0
    ensures r.Ok? <==> |Clip(exact, b)| >= 3
    ensures r.Ok? ==> r.value == Clip(exact, b)
    ensures r.Err? ==> r.error == TooFewShortcuts(line)
  {
    var cells := Clip(exact, b);
    if |cells| > |Columns(b)| * |Rows(b)| then Err(MoreShortcutsThanBruteForce(line))
    else if |cells| < 3 then Err(TooFewShortcuts(line))
    else Ok(cells)
  }

  /** The cells polygon `line` is indexed under: the clipped exact set for a
      big zone, the whole box product otherwise. Either way they lie in the
      box product. */
  function ZoneCells(line: nat, b: Boundary, exact: set<Cell>): (r: Result<set<Cell>>)
    ensures r.Ok? ==> r.value <= BoxCells(b)
    ensures !BigZone(b) ==> r == Ok(BoxCells(b))
    ensures BigZone(b) ==> (r.Ok? <==> |Clip(exact, b)| >= 3) && (r.Ok? ==> r.value == exact * BoxCells(b))
    ensures r.Err? ==> r.error == TooFewShortcuts(line)
  {
    if BigZone(b) then
      BigZoneSpansThreeByThree(b);
      LargeZoneCells(line, b, exact)
    else
      Ok(BoxCells(b))
  }

  /** The cell to polygon-id lists; a missing cell means an empty list. */
  type CellMap = map<Cell, seq<int>>

  /** `shortcuts.fetch(shortcut, [])`. */
  function Fetch(m: CellMap, c: Cell): seq<int> {
    if c in m then m[c] else []
  }

  /** Lines 529-531: `line` is appended to the list of every cell in
      `cells`; all other lists are untouched. */
  function AddLine(m: CellMap, cells: set<Cell>, line: int): (r: CellMap)
    ensures forall c :: c in r <==> c in m || c in cells
    ensures forall c :: c in cells ==> Fetch(r, c) == Fetch(m, c) + [line]
    ensures forall c :: c !in cells ==> Fetch(r, c) == Fetch(m, c)
  {
    map c | c in m.Keys + cells :: if c in cells then Fetch(m, c) + [line] else m[c]
  }

  /** The cells polygon `line` ends up under, or none if its check fails. */
  function CellsOf(bounds: seq<Boundary>, exact: seq<set<Cell>>, line: nat): set<Cell>
    requires |exact| == |bounds| && line < |bounds|
  {
    var r := ZoneCells(line, bounds[line], exact[line]);
    if r.Ok? then r.value else {}
  }

  /** Every list is strictly ascending and holds only ids below `n`. */
  predicate WellIndexed(m: CellMap, n: int) {
    forall c :: c in m ==> Ascending(m[c]) && |m[c]| > 0 && forall k :: 0 <= k < |m[c]| ==> 0 <= m[c][k] < n
  }

  /** No cell lists more ids than there are polygons. */
  lemma ListLengthBounded(m: CellMap, n: int, c: Cell)
    requires WellIndexed(m, n)
    ensures |Fetch(m, c)| <= if n > 0 then n else 0
  {
    if c in m {
      AscendingWithin(m[c], 0, n);
    }
  }

  /** Appending a new, larger id keeps every list ascending and in range. */
  lemma AddLineWellIndexed(m: CellMap, cells: set<Cell>, n: nat)
    requires WellIndexed(m, n)
    ensures WellIndexed(AddLine(m, cells, n), n + 1)
  {
    var r := AddLine(m, cells, n);
    forall c | c in r
      ensures Ascending(r[c]) && |r[c]| > 0 && forall k :: 0 <= k < |r[c]| ==> 0 <= r[c][k] < n + 1
    {
      assert r[c] == Fetch(r, c);
      var prev := Fetch(m, c);
      assert forall k :: 0 <= k < |prev| ==> 0 <= prev[k] < n;
    }
  }

  /** After appending id `n`, a list holds `n` exactly for the new cells,
      and an older id exactly where it was before. */
  lemma AddLineMembership(m: CellMap, cells: set<Cell>, n: nat, c: Cell, line: nat)
    requires WellIndexed(m, n) && line <= n
    ensures line in Fetch(AddLine(m, cells, n), c) <==>
              (if line == n then c in cells else line in Fetch(m, c))
  {
    var prev := Fetch(m, c);
    assert forall k :: 0 <= k < |prev| ==> prev[k] < n;
  }

  /** `construct_shortcuts` over the polygons in order: the build stops at
      the first polygon whose check fails. On success every cell's list is
      strictly ascending, holds only ids of existing polygons, and contains
      a polygon exactly when the polygon's cells contain the cell. */
  function ConstructShortcuts(bounds: seq<Boundary>, exact: seq<set<Cell>>): (r: Result<CellMap>)
    requires |exact| == |bounds|
    ensures r.Ok? <==> forall line :: 0 <= line < |bounds| ==> ZoneCells(line, bounds[line], exact[line]).Ok?
    ensures r.Err? ==> r.error.TooFewShortcuts?
    ensures r.Ok? ==> WellIndexed(r.value, |bounds|)
    ensures r.Ok? ==> forall c, line :: 0 <= line < |bounds| ==>
              (line in Fetch(r.value, c) <==> c in CellsOf(bounds, exact, line))
  {
    if |bounds| == 0 then Ok(map[])
    else
      var n := |bounds| - 1;
      var prev := ConstructShortcuts(bounds[..n], exact[..n]);
      PrefixCells(bounds, exact, n);
      if prev.Err? then prev
      else
        var cells := ZoneCells(n, bounds[n], exact[n]);
        if cells.Err? then Err(cells.error)
        else
          var m := AddLine(prev.value, cells.value, n);
          AddLineWellIndexed(prev.value, cells.value, n);
          assert forall c, line :: 0 <= line < |bounds| ==>
              (line in Fetch(m, c) <==> c in CellsOf(bounds, exact, line)) by {
            forall c, line | 0 <= line < |bounds|
              ensures line in Fetch(m, c) <==> c in CellsOf(bounds, exact, line)
            {
              AddLineMembership(prev.value, cells.value, n, c, line);
            }
          }
          Ok(m)
  }

  /** The first `n` polygons see the same checks and cells in a prefix. */
  lemma PrefixCells(bounds: seq<Boundary>, exact: seq<set<Cell>>, n: nat)
    requires |exact| == |bounds| && n <= |bounds|
    ensures forall line :: 0 <= line < n ==>
              && ZoneCells(line, bounds[..n][line], exact[..n][line]) == ZoneCells(line, bounds[line], exact[line])
              && CellsOf(bounds[..n], exact[..n], line) == CellsOf(bounds, exact, line)
  {
  }
}

=== FILE: zone_names.dfy ===
/** The zone-name table of `update_zone_names`: the names collected in input
    order are deduplicated, sorted, and every polygon gets as its zone id the
    position of its name in the sorted table. */
module ZoneNames {
  import opened Seqs

  /** Ruby's `String#<=>` on names: lexicographic by character code, a proper
      prefix sorting first. */
  predicate LexLess(a: string, b: string)
    decreases |a|
  {
    if |a| == 0 then |b| > 0
    else |b| > 0 && (a[0] < b[0] || (a[0] == b[0] && LexLess(a[1..], b[1..])))
  }

  lemma {:induction false} LexIrreflexive(a: string)
    ensures !LexLess(a, a)
    decreases |a|
  {
    if |a| > 0 {
      LexIrreflexive(a[1..]);
    }
  }

  lemma {:induction false} LexTransitive(a: string, b: string, c: string)
    requires LexLess(a, b) && LexLess(b, c)
    ensures LexLess(a, c)
    decreases |a|
  {
    if |a| > 0 && a[0] == b[0] && b[0] == c[0] {
      LexTransitive(a[1..], b[1..], c[1..]);
    }
  }

  lemma {:induction false} LexTotal(a: string, b: string)
    ensures a == b || LexLess(a, b) || LexLess(b, a)
    decreases |a|
  {
    if |a| > 0 && |b| > 0 && a[0] == b[0] {
      LexTotal(a[1..], b[1..]);
      if a[1..] == b[1..] {
        assert a == [a[0]] + a[1..] && b == [b[0]] + b[1..];
      }
    }
  }

  lemma LexAsymmetric(a: string, b: string)
    requires LexLess(a, b)
    ensures !LexLess(b, a)
  {
    if LexLess(b, a) {
      LexTransitive(a, b, a);
      LexIrreflexive(a);
    }
  }

  /** Non-strictly ascending by `LexLess`, the order `sort!` produces. */
  predicate Sorted(s: seq<string>) {
    forall i, j :: 0 <= i < j < |s| ==> !LexLess(s[j], s[i])
  }

  /** Strictly ascending by `LexLess`. */
  predicate StrictlySorted(s: seq<string>) {
    forall i, j :: 0 <= i < j < |s| ==> LexLess(s[i], s[j])
  }

  /** The unique-zone list built at lines 35-38: each name is appended the
      first time it is seen, so the result keeps first-occurrence order. */
  function Dedup(names: seq<string>): (r: seq<string>)
    ensures Distinct(r)
    ensures forall x :: x in r <==> x in names
    ensures |r| <= |names|
  {
    if |names| == 0 then []
    else
      var d := Dedup(names[..|names| - 1]);
      var x := names[|names| - 1];
      if IndexOf(d, x) < |d| then d else d + [x]
  }

  /** Places `x` into the ascending list `s`. */
  function Insert(x: string, s: seq<string>): (r: seq<string>)
    requires Sorted(s)
    ensures Sorted(r)
    ensures multiset(r) == multiset(s) + multiset{x}
    ensures |r| == |s| + 1
  {
    if |s| == 0 then [x]
    else if !LexLess(s[0], x) then
      assert forall j :: 0 <= j < |s| ==> !LexLess(s[j], x) by {
        forall j | 0 <= j < |s|
          ensures !LexLess(s[j], x)
        {
          if LexLess(s[j], x) {
            LexTotal(s[0], s[j]);
            if s[0] != s[j] {
              LexTransitive(s[0], s[j], x);
            }
          }
        }
      }
      [x] + s
    else
      var t := Insert(x, s[1..]);
      assert s == [s[0]] + s[1..];
      assert forall j :: 0 <= j < |t| ==> !LexLess(t[j], s[0]) by {
        forall j | 0 <= j < |t|
          ensures !LexLess(t[j], s[0])
        {
          assert t[j] in multiset(t);
          if t[j] == x {
            LexAsymmetric(s[0], x);
          } else {
            assert t[j] in multiset(s[1..]);
            var k :| 0 <= k < |s[1..]| && s[1..][k] == t[j];
            assert s[k + 1] == t[j];
          }
        }
      }
      [s[0]] + t
  }

  /** `sort!`: an ascending permutation of its input. */
  function Sort(s: seq<string>): (r: seq<string>)
    ensures Sorted(r)
    ensures multiset(r) == multiset(s)
  {
    if |s| == 0 then []
    else
      assert s == [s[0]] + s[1..];
      Insert(s[0], Sort(s[1..]))
  }

  /** A permutation of a duplicate-free list is duplicate free. */
  lemma {:induction false} PermutationKeepsDistinct(s: seq<string>, r: seq<string>)
    requires Distinct(s)
    requires multiset(r) == multiset(s)
    ensures Distinct(r)
  {
    DistinctMultiplicity(s);
    forall i, j | 0 <= i < j < |r|
      ensures r[i] != r[j]
    {
      assert multiset(r)[r[i]] <= 1;
      RepeatedEntryMultiplicity(r, i, j);
    }
  }

  lemma RepeatedEntryMultiplicity(r: seq<string>, i: nat, j: nat)
    requires i < j < |r|
    ensures r[i] == r[j] ==> multiset(r)[r[j]] >= 2
  {
    var x := r[j];
    assert r == r[..j] + [x] + r[j + 1..];
    assert r[..j][i] == r[i];
    assert r[i] in multiset(r[..j]);
  }

  lemma {:induction false} DistinctMultiplicity(s: seq<string>)
    requires Distinct(s)
    ensures forall x :: multiset(s)[x] <= 1
  {
    if |s| > 0 {
      var p := s[..|s| - 1];
      DistinctMultiplicity(p);
      assert s == p + [s[|s| - 1]];
      assert s[|s| - 1] !in p;
    }
  }

  /** Sorted and duplicate free means strictly sorted. */
  lemma SortedDistinctIsStrict(s: seq<string>)
    requires Sorted(s) && Distinct(s)
    ensures StrictlySorted(s)
  {
    forall i, j | 0 <= i < j < |s|
      ensures LexLess(s[i], s[j])
    {
      LexTotal(s[i], s[j]);
    }
  }

  /** The result of `update_zone_names`: the sorted table and one zone id per
      input name. */
  datatype ZoneTable = ZoneTable(uniqueZones: seq<string>, ids: seq<nat>)

  /** Zone-id assignment (lines 35-45): the table is strictly ascending,
      holds exactly the names that occur, and every polygon's id points at its
      own name. */
  function AssignZoneIds(names: seq<string>): (t: ZoneTable)
    ensures StrictlySorted(t.uniqueZones)
    ensures Distinct(t.uniqueZones)
    ensures forall x :: x in t.uniqueZones <==> x in names
    ensures |t.uniqueZones| <= |names|
    ensures |t.ids| == |names|
    ensures forall i :: 0 <= i < |names| ==>
              t.ids[i] < |t.uniqueZones| && t.uniqueZones[t.ids[i]] == names[i]
  {
    var d := Dedup(names);
    var u := Sort(d);
    PermutationKeepsDistinct(d, u);
    SortedDistinctIsStrict(u);
    assert forall x :: x in u <==> x in d by {
      forall x
        ensures x in u <==> x in d
      {
        assert x in u <==> x in multiset(u);
        assert x in d <==> x in multiset(d);
      }
    }
    assert |u| == |multiset(u)| == |multiset(d)| == |d|;
    ZoneTable(u, seq(|names|, i requires 0 <= i < |names| => IndexOf(u, names[i])))
  }

  /** Ids are consistent: two polygons share an id exactly when they share a
      zone name. */
  lemma SameIdIffSameName(names: seq<string>, i: nat, j: nat)
    requires i < |names| && j < |names|
    ensures AssignZoneIds(names).ids[i] == AssignZoneIds(names).ids[j] <==> names[i] == names[j]
  {
  }

  /** Ids preserve the name order: a smaller id means a smaller name. */
  lemma {:induction false} IdsFollowNameOrder(names: seq<string>, i: nat, j: nat)
    requires i < |names| && j < |names|
    ensures AssignZoneIds(names).ids[i] < AssignZoneIds(names).ids[j] <==> LexLess(names[i], names[j])
  {
    var t := AssignZoneIds(names);
    var a, b := t.ids[i], t.ids[j];
    if a < b {
      assert LexLess(t.uniqueZones[a], t.uniqueZones[b]);
    } else if a == b {
      LexIrreflexive(names[i]);
    } else {
      assert LexLess(t.uniqueZones[b], t.uniqueZones[a]);
      LexAsymmetric(names[j], names[i]);
    }
  }
}
